=== FILE: README.md ===
# greg's selector engine, in Dafny

greg is a keyboard-driven selector for the terminal. It shows a list, narrows it as the
user types, moves a highlighted cursor through a scrolling window, and hands the choice
to a caller. It has three subcommands:

- `dmenu` filters lines read from standard input and prints or writes the chosen line.
- `apps` lists the `.desktop` files of a directory and launches the chosen application.
- `menu` walks a tree of menu entries. An entry can open a submenu, build a submenu by
  running a generator command, or stage a shell command that runs after the selector closes.

This project models the core of that behaviour as pure Dafny functions and proves
properties about them:

- `Text` holds the byte-string helpers greg takes from Go's `strings` package:
  lower-casing, substring search, trimming, line splitting and replace-all.
- `Filtering` is the case-insensitive substring filter (`filterItems`).
- `MenuTree` is the menu entry tree (`Menu`) and the lookup by id (`findMenuByID`).
- `Engine` is the selector state (`model`) and its event step (`model.Update`). It also
  covers the event loop, the list window `View` shows, and the outcome of a finished session.
- `EngineFacts` holds properties over several events: going down a level and back,
  the ways a session can end, typing and backspace, and typing that hides the cursor.
- `Process` describes how shell commands are started (`executeCommand`).
- `Desktop` covers reading application names from desktop files (`readDesktopFiles`) and
  launching one (`launchDesktopFile`). That includes the `Exec=` field-code stripping and
  the `GREG_DRY_RUN` switch.
- `Startup` covers the choice of subcommand, the per-subcommand flag overrides, the
  list height (`getMaxItems`) and the start submenu.
- `Dispatch` covers what happens with the outcome of a session: printing, writing,
  launching or running the staged command (`RunTUIWithItems`, `RunPersistentMenuTUI`).

Modelling choices:

- Go strings are modelled as `seq<char>`, where each character stands for one byte.
  Backspace drops the last byte, as greg does.
- Lower-casing and white-space trimming follow the ASCII rules only.
- The two globals through which the menu hands its staged command to its caller become
  the `pending` part of each step's result.
- Running a generator and decoding its TOML output is an oracle parameter, `expand`. It
  returns `Some(entries)` on success and `None` on failure.
- File contents, the terminal size and `GREG_DRY_RUN` are parameters.
- Output, file writes and process starts are returned as values (`TuiAction`,
  `MenuAction`, `LaunchAction`, `ProcessSpec`). They are not performed.

### Behaviour worth noting

The model follows the Go code in each of these places:

- Typing a key keeps the cursor when it still indexes the narrowed list, but always
  puts the window start back to 0. The highlighted row can therefore lie below the
  visible window; nothing re-clamps it. `EngineFacts.TypingCanHideCursor` shows a
  concrete case.
- A failing generator is silently ignored: the state stays as it was and no error is
  shown (`Engine.Commit`).
- On "esc", the saved cursor and window start are checked against the whole parent
  level, because the query is cleared first. Saved levels are never empty, so the
  "-1 for an empty level" branch of the cursor restore cannot be reached from a
  reachable state.
- The emptiness check of `launchDesktopFile` comes before the field codes are
  stripped. An `Exec=` value made only of field codes therefore starts an empty shell
  command instead of failing (`Desktop.OnlyFieldCodesStartsEmptyCommand`).
- In flat mode (`dmenu`, `apps`), "enter" on an empty list still stops the selector, and
  the session ends with no selection. In menu mode the same key does nothing
  (`EngineFacts.EnterOnEmptyList`).
- The `menu` subcommand runs its own loop and exits at main.go:113-114, before the code
  shared by the other subcommands. So `menu --out` has no effect. The `menu` branch of
  the session settings at main.go:149-177 (`Startup.SessionFor`) is never reached from
  `main`, and neither is the `menu` branch of `RunTUIWithItems` (`Dispatch.TuiDispatch`).
  Both are modelled as written. In each subcommand the list height is computed once:
  at main.go:95 for `menu` and at main.go:142 for the others.

## Model

| member | source | states |
|---|---|---|
| Text.ToLower | tui.go:236 | the lower-cased string has the same length, and each byte is lower-cased in place |
| Text.TrimSpace | main.go:207 | the result is a block of the input with only white space cut from either side, and it neither starts nor ends with white space |
| Text.TrimSpaceIdempotent | launch.go:20-33 | trimming a trimmed string changes nothing |
| Text.Lines | main.go:204 | splitting on newlines gives at least one piece; no piece holds a newline; joining the pieces with newlines gives the input back |
| Text.LinesOfJoin | main.go:204 | splitting undoes joining for newline-free lines |
| Text.Contains | tui.go:236 | every string contains the empty string, and a contained string is no longer than the string containing it |
| Text.CutPrefix | main.go:205 | there is a remainder exactly when the line starts with the prefix, and prefix and remainder together give the line back |
| Text.RemoveAll | launch.go:31 | replace-all with "" never lengthens the string, and leaves it unchanged exactly when the pattern does not occur in it |
| Text.RemoveAllAroundSeparator | launch.go:31 | every occurrence is removed, not just the first: around a byte the pattern does not contain, the two sides are cleaned independently |
| Filtering.Matches | tui.go:236 | an item that matches is at least as long as the query |
| Filtering.MatchesIgnoresCase | tui.go:236 | matching ignores case: lower-casing the item or the query first does not change the answer |
| Filtering.Filter | tui.go:234-241 | the filtered list is an order-preserving subsequence of the input list, never longer |
| Filtering.FilterKeepsExactlyMatches | tui.go:234-239 | an item is kept exactly when its lower-cased form contains the lower-cased query, and each matching item is kept as often as it occurs in the input list |
| Filtering.FilterEmptyQuery | tui.go:227-228 | the empty query keeps the whole source |
| Filtering.FilterIdempotent | tui.go:219-248 | filtering the filtered list again with the same query changes nothing |
| Filtering.FilterAppend | tui.go:235-239 | filtering distributes over concatenation, so the input order is kept |
| Filtering.FilterItems | tui.go:234-239 | the append loop computes exactly the filter |
| MenuTree.Labels | tui.go:428-430 | the labels of a level are its entries' labels, one per entry, in order |
| MenuTree.FindById | menu.go:34-46 | a result is a node of the tree carrying the id; there is no result exactly when no node carries it |
| MenuTree.FindByIdIsFirstInPreorder | menu.go:34-46 | the result is the first node carrying the id in pre-order (node, then its subtree, then later siblings) |
| Engine.InitialFlat | tui.go:367-392 | the flat selector starts on the whole list with cursor and window at the top and an empty query, with the given height, in a state satisfying the invariant |
| Engine.InitialMenu | tui.go:394-423 | the menu starts at the root level listing all its labels, with cursor and window at the top, an empty query, no saved levels and the given height, in a state satisfying the invariant |
| Engine.Source | tui.go:220-225 | the list the query filters is the current level's labels in menu mode and the item list in flat mode |
| Engine.ShownItemsFromSource | tui.go:219-248 | every row of the list matches the query and comes from the list being filtered: an item in flat mode, a label of the current level in menu mode |
| Engine.Refilter | tui.go:219-248 | filtering changes only the list, cursor and window start; the empty query restores the whole `Source` list and resets both to 0; otherwise each is reset to 0 only when it no longer indexes the new list |
| Engine.ShowLevel | tui.go:425-432 | showing a level clears the query and lists all its labels, which is what the empty-query filter gives |
| Engine.MoveUp | tui.go:176-182 | "up" moves the cursor up one row unless at the top, scrolls by at most one row and only when the cursor moves above the window, changes nothing else, keeps a visible cursor visible and keeps the invariant |
| Engine.MoveDown | tui.go:183-189 | "down" moves the cursor down one row unless on the last item, scrolls by at most one row and only when the cursor moves below the window, changes nothing else, keeps a visible cursor visible and keeps the invariant |
| Engine.Backspace | tui.go:191-196 | backspace on an empty query does nothing; otherwise it drops the last byte, filters again and puts the window at the top; the cursor goes to the top when the query becomes empty and otherwise stays unless it is past the new list; nothing else changes, and the invariant is kept |
| Engine.TypeKey | tui.go:198-203 | a typed byte is appended to the query, the list is filtered again, the window returns to the top, the cursor is kept when it still indexes the list and is 0 otherwise; nothing else changes |
| Engine.Descend | tui.go:132-141 | going down pushes the current level, cursor and window start and shows the new level from the top with an empty query |
| Engine.Ascend | tui.go:74-106 | "esc" with saved levels pops one entry from each stack, shows the saved level with an empty query, and restores cursor and window start within range |
| Engine.RestoredCursor | tui.go:80-91 | a saved cursor is kept when it indexes the level and otherwise moves to its last item |
| Engine.RestoredStart | tui.go:95-102 | a saved window start is kept when it indexes the level and otherwise becomes 0 |
| Engine.AscendKeepsInv | tui.go:74-106 | going back up keeps the invariant |
| Engine.FirstActionable | tui.go:125-130 | "enter" acts on the first entry carrying the highlighted label that has an action; entries with that label but no action are passed over |
| Engine.Commit | tui.go:131-165 | a submenu wins over a generator, which wins over a command; a failing generator leaves the state unchanged; a command is staged and stops the loop; a staged command is never empty |
| Engine.Enter | tui.go:118-172 | in flat mode "enter" stops the loop; in menu mode it does nothing on an empty list or when no entry acts, and otherwise commits the chosen entry; only menu mode stages a command |
| Engine.Cancel | tui.go:108-114 | cancelling stops the loop with the cursor at -1 and nothing staged |
| Engine.Step | tui.go:58-217 | one event keeps the mode and the item list; a step that goes on stages nothing; only "enter" in menu mode stages a command; only "enter" in flat mode stops with the cursor on an item; a resize records the new size and changes nothing else; "up"/"k" is the cursor-up step and "down"/"j" the cursor-down step; the other keys are stated by `Engine.OtherKeys` |
| Engine.OtherKeys | tui.go:72-203 | "enter" is the enter step, "backspace" the backspace step, any other one-byte key except "j" and "k" is typed into the query, "esc" in a nested menu level goes back up, and a longer unknown key name changes nothing |
| Engine.DescendKeepsInv | tui.go:132-156 | going down from a non-empty level keeps the invariant |
| Engine.EnterKeepsInv | tui.go:118-172 | "enter" keeps the invariant whenever the loop goes on |
| Engine.StepKeepsInv | tui.go:58-217 | from a state satisfying the invariant, a step that goes on keeps it, and one that stops leaves the cursor readable or -1 |
| Engine.Run | tui.go:58-217 | the event loop, run while it goes on, keeps the invariant; it stops only in a finished state; it stages commands only in menu mode; a menu stops either with a command or cancelled |
| Engine.Window | tui.go:269-271 | the window shows at most `maxItems` rows of the filtered list from the window start, is non-empty while there are matches, and shows a visible cursor's item on its row |
| Engine.OutcomeOf | tui.go:330-334 | a staged command wins; otherwise there is no selection exactly when the list is empty or the cursor is -1; a selection is the highlighted item |
| EngineFacts.DescendThenAscendRestores | tui.go:74-141 | going down a level and straight back up restores the state exactly |
| EngineFacts.EnterThenEscRestores | tui.go:74-156 | when "enter" opens a submenu from an unfiltered menu, "esc" returns exactly to the state before it |
| EngineFacts.NavigationKeys | tui.go:176-189 | "up" and "k" move the cursor up one row and "down" and "j" down one row, doing nothing at the first or last item; the loop goes on with the query and the list unchanged |
| EngineFacts.TypeThenBackspace | tui.go:191-203 | backspace after a typed byte brings back the query and the filtered list from before it |
| EngineFacts.CancellingEvents | tui.go:108-115 | ctrl+c and the timeout cancel at any depth; "esc" cancels when there is no level to go back to |
| EngineFacts.EnterOnEmptyList | tui.go:119-122 | in menu mode "enter" on an empty list does nothing; in flat mode it ends with no selection |
| EngineFacts.SessionOutcomes | tui.go:330-364 | a flat session never yields a command, and a selected value is one of its items; a menu session ends cancelled or with a command |
| EngineFacts.TypingCanHideCursor | tui.go:198-203 | typing can leave the highlighted item below the visible window |
| Process.Detached | menu.go:81-87 | a detached start runs `/bin/sh -c cmd` with no streams, in a new session, without waiting |
| Process.Attached | menu.go:90-94 | an attached run shares the program's streams and session and is waited for |
| Process.ExecuteCommand | menu.go:76-95 | the shell runs exactly the command, attached and waited for exactly when it is visible, detached otherwise |
| Desktop.FirstKeyLine | main.go:204-210 | finds the first line starting with the key, and finds none exactly when no line does |
| Desktop.KeyValue | launch.go:18-23 | a value exists exactly when some line starts with the key, and it is the rest of the first such line |
| Desktop.TrimmedValue | main.go:204-210 | the value is "" when no line starts with the key, and otherwise the trimmed rest of the first line that does; it is trimmed |
| Desktop.DesktopName | main.go:203-210 | the application name is the trimmed rest of the first `Name=` line, or "" when there is none |
| Desktop.AppOf | main.go:193-213 | an entry yields an application exactly when it is a readable `*.desktop` file with a non-empty trimmed `Name=`, and the path joins the directory and the file name |
| Desktop.ReadDesktopFiles | main.go:185-217 | the application list is never longer than the directory listing |
| Desktop.ReadDesktopFilesMembers | main.go:192-214 | an application is listed exactly when some directory entry contributes it |
| Desktop.ListedNamesAreTrimmed | main.go:203-213 | every listed name is non-empty and has no white space at either end |
| Desktop.ReadDesktopFilesAppend | main.go:192-214 | the listing follows directory order |
| Desktop.RemoveCodes | launch.go:29-32 | removing codes never lengthens the value |
| Desktop.RemoveCodesAroundSeparator | launch.go:29-32 | every occurrence of every code is removed on both sides of a byte no code contains |
| Desktop.RemoveCodesKeepsPlain | launch.go:29-32 | a value without '%' comes through the code removal unchanged |
| Desktop.StripFieldCodes | launch.go:28-33 | the stripped command is never longer than the value and is trimmed; a value without '%' is only trimmed |
| Desktop.EachFieldCodeStripped | launch.go:28-33 | each of the seven codes standing as a word between plain text is removed, leaving the text around it, trimmed |
| Desktop.CodeBetweenSpacesRemoved | launch.go:29-32 | a code of the list between two spaces disappears and the plain text on both sides is kept |
| Desktop.CodeRemovedByCodes | launch.go:29-32 | a code on its own is removed entirely by a list of equal-length codes that holds it, whatever its position in the list |
| Desktop.PercentPercentSurvives | launch.go:29-32 | "%%ff" becomes "%f": each code is removed in one pass |
| Desktop.ExecValue | launch.go:17-23 | the command is the trimmed rest of the first `Exec=` line, or "" when there is none; a non-empty command always comes from an `Exec=` line |
| Desktop.LaunchDesktopFile | launch.go:11-49 | an unreadable file or a missing or empty `Exec=` value is an error; otherwise GREG_DRY_RUN="1" prints "DRY-RUN-EXEC: " and the stripped command, and anything else starts it detached through the shell |
| Desktop.OnlyFieldCodesStartsEmptyCommand | launch.go:25-33 | an `Exec=` value made only of field codes starts an empty command |
| Startup.SelectMode | main.go:27-36 | "menu" wins over "dmenu", which wins over "apps"; with none named the mode is "apps" |
| Startup.LogAfter | main.go:57-60 | an empty log level keeps the switch; "error" and "warn" turn logging off, every other level turns it on |
| Startup.ApplyFlags | main.go:51-74 | only a non-zero `--max-items` of the running subcommand replaces the height, "apps" never does, and the log level is applied |
| Startup.GetMaxItemsAsWritten | main.go:222-240 | as greg computes it, from the first result of GetSize, which is the width: a positive height is kept; an unmeasurable terminal or one under 5 columns gets the fallback; otherwise the width less 4; at least 1 when the fallback is |
| Startup.AsWrittenOverflowsTerminal | main.go:227-238 | on an 80x24 terminal greg asks for 76 rows |
| Startup.GetMaxItems | main.go:222-240 | a positive height is kept; an unmeasurable or short terminal gets the fallback; otherwise the height less 4, at least 1 and leaving room for the 4 reserved lines |
| Startup.SessionConfig | main.go:51-142 | the session keeps the flagged log switch and a positive flagged height; otherwise a terminal at least 5 lines high gives its height less 4, and an unmeasurable or shorter one gives the fallback height; the height is at least 1 when the fallback is |
| Startup.DesktopDir | main.go:118-121 | the `--desktop-dir` value when given, otherwise the built-in directory |
| Startup.SessionFor | main.go:149-177 | output file, dry run and timeout come from the running subcommand; "apps" has no output file and no timeout |
| Startup.StartLevel | main.go:103-111 | with no id, or an id no node carries, the session starts at the top; otherwise at the children of the first node carrying it |
| Startup.StartLevelInTree | main.go:103-111 | the start level never shows a node outside the configured tree |
| Dispatch.FirstAppNamed | tui.go:350-351 | finds an application carrying the name, and finds none exactly when no application does |
| Dispatch.FirstAppNamedIsFirst | tui.go:350-351 | no earlier application carries the name |
| Dispatch.TuiDispatch | tui.go:330-364 | nothing happens without a selection; dmenu writes or prints the item with a newline; apps launches the first application of that name, only prints on a dry run, and does nothing when none matches; menu returns the item; in dmenu an output file is written exactly when one is given; apps prints only on a dry run and otherwise launches the application found |
| Dispatch.AppsSessionLaunchesListedApp | tui.go:349-358 | in an application session, a launched application is a listed one with the selected name, and a selection always launches unless it is a dry run |
| Dispatch.AppNames | main.go:128-130 | the items of an application session are the application names, one per application, in order |
| Dispatch.MenuDispatch | menu.go:156-169 | a staged command is printed after "DRY-RUN: " on a dry run and run otherwise, attached exactly when visible; without one nothing happens |
| Dispatch.MenuError | menu.go:163-170 | a failing command's error wins over the selector's error |
| Dispatch.MenuSessionDispatch | menu.go:156-169 | a menu session runs a command exactly when it staged one, never on a dry run, and waits for it exactly when its entry is visible |
| Dispatch.PendingCommandNonEmpty | tui.go:160-164 | a command staged by the menu is never empty |

## Left out

- Terminal rendering is not modelled: styles, colours, the header, the help text, the
  prompt text and the "no matches found" line. Only the list window is modelled.
- The inactivity timer is not modelled: the goroutine, its reset channel and the timer
  itself. The timeout is modelled as the `Timeout` event, which can arrive at any point.
- Running a generator and decoding its TOML output are an oracle, and loading
  `menu.toml` (`loadMenu`) is not modelled; the menu tree is an input.
- Argument parsing (cli.go) and configuration loading (`LoadConfig`, `defaultConfig`)
  are not modelled. The parsed flags and the loaded configuration are inputs.
- Reading standard input for `dmenu`, and the check that it is a pipe, are not modelled.
- Reading the directory and the files is not modelled. A directory that cannot be read
  is not modelled either. An entry carries its file's contents, or `None` when the file
  cannot be read.
- Creating the output directory for `--out`, and the errors of writing files or
  starting processes, are not modelled. They appear only as actions or as opaque errors
  (`Dispatch.MenuError`).
- Diagnostics on standard error or standard output are not modelled: debug lines, the
  "Executing" line and the "submenu not found" warning.
- `GREG_DEBUG_ARGS` is not modelled.
- Text.ToLower: follows the ASCII rules only. Go's `strings.ToLower` also folds
  non-ASCII letters.
- Text.TrimSpace: trims ASCII white space only. Go also trims Unicode white space.
- Desktop.AppOf: joins the directory and the file name with "/" and does not clean the
  path as `filepath.Join` does.
- Engine.InitialFlat: requires a list height of at least 1. That height is part of the
  invariant. It holds whenever the fallback height is at least 1
  (`Startup.SessionConfig`); the default configuration is not part of this model.
- Engine.InitialMenu: requires the same list height of at least 1, for the same reason
  as `Engine.InitialFlat`.
- Startup.SessionConfig: resolves the height with the corrected `Startup.GetMaxItems`
  (the terminal's height), not the width-based computation main.go:95 and 142 run. On an
  80x24 terminal the model gives 20 rows where greg asks for 76 (see Findings).
- Window size messages only record the new size, which is used for rendering alone.
- Mouse and other messages, which `Update` ignores, are not modelled.

## Findings

| source | as written | input that shows it | evidently intended | confidence | as-written member | corrected member |
|---|---|---|---|---|---|---|
| main.go:227 | `height, _, err := term.GetSize(...)` takes the first result, which GetSize defines as the width, and subtracts the 4 reserved lines from it | an 80-column, 24-line terminal with `max_items` not positive: 76 rows are asked for, 56 more lines than the terminal has | the terminal height less 4 reserved lines, so list and reserved lines fit the terminal | high (relies on golang.org/x/term's GetSize returning width first); not executed | Startup.AsWrittenOverflowsTerminal | Startup.GetMaxItems |

=== FILE: desktop.dfy ===
/**
 Desktop entry files (main.go:184-217, launch.go): finding the applications
 of a directory by their `Name=` line, and turning an application's `Exec=`
 line into the process to start.

 Reading the directory and the files is left to the caller: a directory
 entry carries its file's contents, or `None` when the file could not be
 read.
 */
module Desktop {
  import opened Text
  import opened Process

  /** One entry of the directory listing, with the contents of its file when it could be read. */
  datatype DirEntry = DirEntry(name: String, isDir: bool, contents: Option<String>)

  /** An application: the name shown in the selector and the path of its desktop file (`AppEntry`, main.go:13-16). */
  datatype AppEntry = AppEntry(name: String, path: String)

  // ---------------------------------------------------------------------------
  // Key lines

  /** Line `i` is the first of `lines` that starts with `key`. */
  predicate IsFirstKeyLine(lines: seq<String>, key: String, i: int) {
    && 0 <= i < |lines|
    && HasPrefix(lines[i], key)
    && forall j :: 0 <= j < i ==> !HasPrefix(lines[j], key)
  }

  function FirstKeyLine(lines: seq<String>, key: String): (r: Option<nat>)
    ensures r.Some? ==> IsFirstKeyLine(lines, key, r.value)
    ensures r.None? <==> forall j :: 0 <= j < |lines| ==> !HasPrefix(lines[j], key)
    decreases |lines|
  {
    if lines == [] then None
    else if HasPrefix(lines[0], key) then Some(0)
    else
      match FirstKeyLine(lines[1..], key)
      case None => None
      case Some(k) => Some(k + 1)
  }

  /**
   The loops at main.go:204-210 and launch.go:18-23: the remainder of the
   first line of `data` that starts with `key`; later such lines are ignored.
   There is none exactly when no line starts with `key`.
   */
  function KeyValue(data: String, key: String): (r: Option<String>)
    ensures r.Some? <==> exists j :: 0 <= j < |Lines(data)| && HasPrefix(Lines(data)[j], key)
    ensures r.Some? ==> exists i :: IsFirstKeyLine(Lines(data), key, i) && Lines(data)[i] == key + r.value
  {
    var lines := Lines(data);
    match FirstKeyLine(lines, key)
    case None => None
    case Some(i) =>
      assert IsFirstKeyLine(lines, key, i);
      assert 0 <= i < |Lines(data)| && HasPrefix(Lines(data)[i], key);
      CutPrefix(lines[i], key)
  }

  /** Two lines cannot both be the first that starts with `key`. */
  lemma FirstKeyLineUnique(lines: seq<String>, key: String, i: int, k: int)
    requires IsFirstKeyLine(lines, key, i) && IsFirstKeyLine(lines, key, k)
    ensures i == k
  {
  }

  /**
   `v` is the value of `key` in `data` as greg reads it: "" when no line
   starts with `key`, and otherwise the rest of the first such line with its
   surrounding white space trimmed (`FirstKeyLine` finds that line).
   */
  predicate IsTrimmedValue(data: String, key: String, v: String) {
    match FirstKeyLine(Lines(data), key)
    case None => v == ""
    case Some(i) => v == TrimSpace(Lines(data)[i][|key|..])
  }

  /**
   The trimmed remainder of the first line starting with `key`, or "" when
   there is none (main.go:204-210, launch.go:17-23). The result is trimmed.
   */
  function TrimmedValue(data: String, key: String): (r: String)
    ensures IsTrimmedValue(data, key, r)
    ensures r == [] || (!IsSpace(r[0]) && !IsSpace(r[|r| - 1]))
  {
    match KeyValue(data, key)
    case None => ""
    case Some(v) =>
      var k := FirstKeyLine(Lines(data), key).value;
      var i :| IsFirstKeyLine(Lines(data), key, i) && Lines(data)[i] == key + v;
      FirstKeyLineUnique(Lines(data), key, i, k);
      assert Lines(data)[k][|key|..] == v;
      TrimSpace(v)
  }

  /** The application name of a desktop file: its first `Name=` value, trimmed; "" when there is none (main.go:203-210). */
  function DesktopName(data: String): (r: String)
    ensures IsTrimmedValue(data, "Name=", r)
    ensures r == [] || (!IsSpace(r[0]) && !IsSpace(r[|r| - 1]))
  {
    TrimmedValue(data, "Name=")
  }

  // ---------------------------------------------------------------------------
  // readDesktopFiles

  /** filepath.Join for a plain directory and a file name. */
  function JoinPath(dir: String, name: String): String {
    if dir == "" then name else dir + "/" + name
  }

  /** A name the application list can show: non-empty, with no white space at either end. */
  predicate IsAppName(name: String) {
    name != [] && !IsSpace(name[0]) && !IsSpace(name[|name| - 1])
  }

  /** The application a directory entry contributes, if any (main.go:193-213). */
  function AppOf(dir: String, e: DirEntry): (r: Option<AppEntry>)
    ensures r.Some? <==> && !e.isDir && HasSuffix(e.name, ".desktop")
                         && e.contents.Some? && DesktopName(e.contents.value) != ""
    ensures r.Some? ==> r.value == AppEntry(DesktopName(e.contents.value), JoinPath(dir, e.name))
    ensures r.Some? ==> IsAppName(r.value.name)
  {
    if e.isDir || !HasSuffix(e.name, ".desktop") then None
    else
      match e.contents
      case None => None
      case Some(data) =>
        var name := DesktopName(data);
        if name != "" then Some(AppEntry(name, JoinPath(dir, e.name))) else None
  }

  /** The values `f` yields for the elements of `xs`, in order; elements it yields nothing for are skipped. */
  function Collect<X, Y>(f: X -> Option<Y>, xs: seq<X>): (r: seq<Y>)
    ensures |r| <= |xs|
    decreases |xs|
  {
    if xs == [] then []
    else
      match f(xs[0])
      case None => Collect(f, xs[1..])
      case Some(y) => [y] + Collect(f, xs[1..])
  }

  /** Every value `f` yields for an element is collected. */
  lemma {:induction false} CollectHasEvery<X, Y>(f: X -> Option<Y>, xs: seq<X>, i: int)
    requires 0 <= i < |xs| && f(xs[i]).Some?
    ensures f(xs[i]).value in Collect(f, xs)
    decreases |xs|
  {
    if i > 0 {
      assert xs[i] == xs[1..][i - 1];
      CollectHasEvery(f, xs[1..], i - 1);
    }
  }

  /** Every collected value is what `f` yields for some element. */
  lemma {:induction false} CollectHasOnly<X, Y>(f: X -> Option<Y>, xs: seq<X>, y: Y)
    requires y in Collect(f, xs)
    ensures exists i :: 0 <= i < |xs| && f(xs[i]) == Some(y)
    decreases |xs|
  {
    if f(xs[0]) != Some(y) {
      CollectHasOnly(f, xs[1..], y);
      var j :| 0 <= j < |xs[1..]| && f(xs[1..][j]) == Some(y);
      assert xs[j + 1] == xs[1..][j];
    }
  }

  lemma {:induction false} CollectAppend<X, Y>(f: X -> Option<Y>, a: seq<X>, b: seq<X>)
    ensures Collect(f, a + b) == Collect(f, a) + Collect(f, b)
    decreases |a|
  {
    if a == [] {
      assert a + b == b;
    } else {
      assert (a + b)[1..] == a[1..] + b;
      CollectAppend(f, a[1..], b);
    }
  }

  /**
   readDesktopFiles (main.go:185-217) over a directory listing: the
   applications of the entries, in directory order.
   */
  function ReadDesktopFiles(dir: String, entries: seq<DirEntry>): (r: seq<AppEntry>)
    ensures |r| <= |entries|
  {
    Collect((e: DirEntry) => AppOf(dir, e), entries)
  }

  /**
   An application is listed exactly when it comes from a non-directory entry
   named "*.desktop" whose file could be read and has a non-empty trimmed
   `Name=` value; its name is that value.
   */
  lemma ReadDesktopFilesMembers(dir: String, entries: seq<DirEntry>, a: AppEntry)
    ensures a in ReadDesktopFiles(dir, entries) <==>
            exists i :: 0 <= i < |entries| && AppOf(dir, entries[i]) == Some(a)
  {
    var f := (e: DirEntry) => AppOf(dir, e);
    if a in ReadDesktopFiles(dir, entries) {
      CollectHasOnly(f, entries, a);
    } else if exists i :: 0 <= i < |entries| && AppOf(dir, entries[i]) == Some(a) {
      var i :| 0 <= i < |entries| && AppOf(dir, entries[i]) == Some(a);
      CollectHasEvery(f, entries, i);
    }
  }

  /** Every listed name is non-empty and has no white space at either end. */
  lemma ListedNamesAreTrimmed(dir: String, entries: seq<DirEntry>, a: AppEntry)
    ensures a in ReadDesktopFiles(dir, entries) ==> IsAppName(a.name)
  {
    ReadDesktopFilesMembers(dir, entries, a);
  }

  /** Listing keeps directory order: the listing of two runs of entries is the two listings in turn. */
  lemma ReadDesktopFilesAppend(dir: String, a: seq<DirEntry>, b: seq<DirEntry>)
    ensures ReadDesktopFiles(dir, a + b) == ReadDesktopFiles(dir, a) + ReadDesktopFiles(dir, b)
  {
    CollectAppend((e: DirEntry) => AppOf(dir, e), a, b);
  }

  // ---------------------------------------------------------------------------
  // launchDesktopFile

  /** The field codes stripped from an `Exec=` value, in the order they are removed (launch.go:29). */
  const FieldCodes: seq<String> := ["%f", "%F", "%u", "%U", "%i", "%c", "%k"]

  /** Each code of `codes` in turn, every occurrence removed by one left-to-right pass. */
  function RemoveCodes(s: String, codes: seq<String>): (r: String)
    requires forall i :: 0 <= i < |codes| ==> |codes[i]| > 0
    ensures |r| <= |s|
    decreases |codes|
  {
    if codes == [] then s
    else RemoveCodes(RemoveAll(s, codes[0]), codes[1..])
  }

  /** Codes that each start with '%'. */
  predicate PercentCodes(codes: seq<String>) {
    forall i :: 0 <= i < |codes| ==> |codes[i]| > 0 && codes[i][0] == '%'
  }

  /** A value without '%' holds none of the codes and comes through unchanged. */
  lemma {:induction false} RemoveCodesKeepsPlain(s: String, codes: seq<String>)
    requires PercentCodes(codes)
    ensures '%' !in s ==> RemoveCodes(s, codes) == s
    decreases |codes|
  {
    if codes != [] && '%' !in s {
      NotContainsFirst(s, codes[0]);
      RemoveCodesKeepsPlain(s, codes[1..]);
    }
  }

  /**
   Every occurrence of every code is removed, on both sides of a byte that
   no code contains: "a %f b %f" loses both codes, not only the first.
   */
  lemma {:induction false} RemoveCodesAroundSeparator(s: String, c: char, t: String, codes: seq<String>)
    requires forall i :: 0 <= i < |codes| ==> |codes[i]| > 0 && c !in codes[i]
    ensures RemoveCodes(s + [c] + t, codes) == RemoveCodes(s, codes) + [c] + RemoveCodes(t, codes)
    decreases |codes|
  {
    if codes != [] {
      RemoveAllAroundSeparator(s, c, t, codes[0]);
      RemoveCodesAroundSeparator(RemoveAll(s, codes[0]), c, RemoveAll(t, codes[0]), codes[1..]);
    }
  }

  /**
   The field-code stripping of launch.go:28-33: the codes %f %F %u %U %i %c
   %k removed in that order, then white space trimmed. The result is never
   longer than the value and is trimmed; a value without '%' is only trimmed.
   A code can survive: removals are single passes, so "%%ff" becomes "%f".
   */
  function StripFieldCodes(line: String): (r: String)
    ensures |r| <= |line|
    ensures r == [] || (!IsSpace(r[0]) && !IsSpace(r[|r| - 1]))
    ensures '%' !in line ==> r == TrimSpace(line)
  {
    FieldCodesArePercentCodes();
    RemoveCodesKeepsPlain(line, FieldCodes);
    TrimSpace(RemoveCodes(line, FieldCodes))
  }

  lemma FieldCodesArePercentCodes()
    ensures forall i :: 0 <= i < |FieldCodes| ==> |FieldCodes[i]| == 2 && FieldCodes[i][0] == '%'
    ensures forall i :: 0 <= i < |FieldCodes| ==> ' ' !in FieldCodes[i]
    ensures PercentCodes(FieldCodes)
  {
    assert |FieldCodes| == 7;
    assert |FieldCodes[0]| == 2 && FieldCodes[0][0] == '%';
    assert |FieldCodes[1]| == 2 && FieldCodes[1][0] == '%';
    assert |FieldCodes[2]| == 2 && FieldCodes[2][0] == '%';
    assert |FieldCodes[3]| == 2 && FieldCodes[3][0] == '%';
    assert |FieldCodes[4]| == 2 && FieldCodes[4][0] == '%';
    assert |FieldCodes[5]| == 2 && FieldCodes[5][0] == '%';
    assert |FieldCodes[6]| == 2 && FieldCodes[6][0] == '%';
  }

  /**
   Each field code is stripped wherever it stands as a word of the command:
   "a %u b" becomes "a  b" (then trimmed) for every one of the seven codes,
   not only the first in the list.
   */
  lemma {:induction false} EachFieldCodeStripped(a: String, code: String, b: String)
    requires code in FieldCodes && '%' !in a && '%' !in b
    ensures StripFieldCodes(a + [' '] + code + [' '] + b) == TrimSpace(a + [' ', ' '] + b)
  {
    FieldCodesArePercentCodes();
    CodeBetweenSpacesRemoved(a, code, b, FieldCodes);
  }

  /** A code of the list standing between two spaces is removed; the plain text around it stays. */
  lemma {:induction false} CodeBetweenSpacesRemoved(a: String, code: String, b: String, codes: seq<String>)
    requires code in codes && |code| > 0 && PercentCodes(codes)
    requires forall i :: 0 <= i < |codes| ==> |codes[i]| == |code| && ' ' !in codes[i]
    requires '%' !in a && '%' !in b
    ensures RemoveCodes(a + [' '] + code + [' '] + b, codes) == a + [' ', ' '] + b
  {
    var rest := code + [' '] + b;
    assert RemoveCodes(rest, codes) == [' '] + b by {
      RemoveCodesAroundSeparator(code, ' ', b, codes);
      CodeRemovedByCodes(code, codes);
      RemoveCodesKeepsPlain(b, codes);
    }
    assert a + [' '] + code + [' '] + b == a + [' '] + rest;
    RemoveCodesAroundSeparator(a, ' ', rest, codes);
    RemoveCodesKeepsPlain(a, codes);
    assert a + [' '] + ([' '] + b) == a + [' ', ' '] + b;
  }

  /** A code on its own disappears when the list holds it and every code has its length. */
  lemma {:induction false} CodeRemovedByCodes(code: String, codes: seq<String>)
    requires code in codes && |code| > 0
    requires forall i :: 0 <= i < |codes| ==> |codes[i]| == |code|
    ensures RemoveCodes(code, codes) == []
    decreases |codes|
  {
    if codes[0] == code {
      assert code[..|code|] == code;
      assert RemoveAll(code, code) == RemoveAll(code[|code|..], code);
    } else {
      assert code in codes[1..];
      SameLengthLeftAlone(code, codes[0]);
      CodeRemovedByCodes(code, codes[1..]);
    }
  }

  /** A different pattern of the same length does not occur, so nothing is removed. */
  lemma SameLengthLeftAlone(s: String, pat: String)
    requires |pat| > 0 && |s| == |pat| && s != pat
    ensures RemoveAll(s, pat) == s
  {
    assert s[0..|pat|] == s;
  }

  /**
   The trimmed value of the first `Exec=` line; "" when there is none
   (launch.go:17-23). A non-empty command always comes from an `Exec=` line.
   */
  function ExecValue(data: String): (r: String)
    ensures IsTrimmedValue(data, "Exec=", r)
    ensures r != "" ==> exists i :: 0 <= i < |Lines(data)| && HasPrefix(Lines(data)[i], "Exec=")
    ensures r == [] || (!IsSpace(r[0]) && !IsSpace(r[|r| - 1]))
  {
    TrimmedValue(data, "Exec=")
  }

  datatype LaunchError = ReadFailed | NoExecLine(path: String)

  /** What launching an application does: print the command (dry run) or start it. */
  datatype LaunchAction = EchoExec(text: String) | Start(process: ProcessSpec)

  /**
   launchDesktopFile (launch.go:11-49), given the file's contents (`None`
   when it cannot be read) and the value of GREG_DRY_RUN. An unreadable file
   or a missing or empty `Exec=` value is an error and nothing is printed or
   started. Otherwise the stripped command is printed after "DRY-RUN-EXEC: "
   when GREG_DRY_RUN is "1", and started detached through the shell when not.
   */
  function LaunchDesktopFile(path: String, contents: Option<String>, dryRunEnv: String): (r: Result<LaunchAction, LaunchError>)
    ensures contents.None? ==> r == Err(ReadFailed)
    ensures contents.Some? ==> (r.Err? <==> ExecValue(contents.value) == "")
    ensures r.Err? && contents.Some? ==> r.error == NoExecLine(path)
    ensures r.Ok? && dryRunEnv == "1" ==>
              r.value == EchoExec("DRY-RUN-EXEC: " + StripFieldCodes(ExecValue(contents.value)) + "\n")
    ensures r.Ok? && dryRunEnv != "1" ==>
              && r.value.Start?
              && r.value.process == Detached(StripFieldCodes(ExecValue(contents.value)))
  {
    match contents
    case None => Err(ReadFailed)
    case Some(data) =>
      var execLine := ExecValue(data);
      if execLine == "" then Err(NoExecLine(path))
      else
        var command := StripFieldCodes(execLine);
        if dryRunEnv == "1" then Ok(EchoExec("DRY-RUN-EXEC: " + command + "\n"))
        else Ok(Start(Detached(command)))
  }

  /** A code can survive stripping: "%%ff" loses only the inner "%f". */
  lemma PercentPercentSurvives(line: String)
    requires line == "%%ff"
    ensures StripFieldCodes(line) == "%f"
  {
    RemoveCodesOfPercentPercent(line);
    TrimSpaceOfTrimmed("%f");
  }

  lemma RemoveCodesOfPercentPercent(line: String)
    requires line == "%%ff"
    ensures RemoveCodes(line, FieldCodes) == "%f"
  {
    FieldCodesArePercentCodes();
    RemoveInnerCode();
    LaterCodesDiffer();
    RemoveCodesUnchanged("%f", FieldCodes[1..]);
  }

  lemma LaterCodesDiffer()
    ensures forall i :: 0 <= i < |FieldCodes[1..]| ==> |FieldCodes[1..][i]| == 2 && FieldCodes[1..][i] != "%f"
  {
    forall i | 0 <= i < |FieldCodes[1..]|
      ensures |FieldCodes[1..][i]| == 2 && FieldCodes[1..][i] != "%f"
    {
      assert FieldCodes[1..][i][1] != 'f';
    }
  }

  lemma RemoveInnerCode()
    ensures RemoveAll("%%ff", "%f") == "%f"
  {
    var s := "%%ff";
    assert s[..2][1] == '%';
    assert s[1..][..2] == "%f";
    assert s[1..][2..] == "f";
    assert RemoveAll("f", "%f") == "f";
  }

  /** A code of the same length as `s` but different from it is not found in `s`. */
  lemma {:induction false} RemoveCodesUnchanged(s: String, codes: seq<String>)
    requires forall i :: 0 <= i < |codes| ==> |codes[i]| == |s| > 0 && codes[i] != s
    ensures RemoveCodes(s, codes) == s
    decreases |codes|
  {
    if codes != [] {
      assert !Contains(s, codes[0]) by {
        forall i | 0 <= i <= |s| - |codes[0]|
          ensures !OccursAt(s, codes[0], i)
        {
          assert i == 0 && s[0..|codes[0]|] == s;
        }
      }
      RemoveCodesUnchanged(s, codes[1..]);
    }
  }

  /**
   The emptiness check comes before the stripping: an `Exec=` value made only
   of field codes is not an error, it starts an empty shell command.
   */
  lemma OnlyFieldCodesStartsEmptyCommand(path: String, data: String)
    requires data == "Exec=%f"
    ensures LaunchDesktopFile(path, Some(data), "") == Ok(Start(Detached("")))
  {
    ExecValueOfSingleLine(data);
    StripOnlyCode("%f");
  }

  lemma ExecValueOfSingleLine(data: String)
    requires data == "Exec=%f"
    ensures ExecValue(data) == "%f"
  {
    SingleLine(data);
    ExecKeyOfSingleLine(data);
    TrimSpaceOfTrimmed("%f");
  }

  lemma SingleLine(data: String)
    requires data == "Exec=%f"
    ensures Lines(data) == [data]
  {
    assert forall i | 0 <= i < |data| :: data[i] != '\n';
  }

  lemma ExecKeyOfSingleLine(data: String)
    requires data == "Exec=%f" && Lines(data) == [data]
    ensures KeyValue(data, "Exec=") == Some("%f")
  {
    assert HasPrefix(data, "Exec=");
  }

  lemma StripOnlyCode(line: String)
    requires line == "%f"
    ensures StripFieldCodes(line) == ""
  {
    FieldCodesArePercentCodes();
    assert RemoveAll(line, "%f") == "";
    assert |RemoveCodes("", FieldCodes[1..])| == 0;
    assert RemoveCodes(line, FieldCodes) == "";
  }
}

=== FILE: dispatch.dfy ===
/**
 What happens after a selector session stops: the flat selector's outcome
 handling (RunTUIWithItems, tui.go:330-364) and the persistent menu's
 handling of a staged command (RunPersistentMenuTUI, menu.go:156-170).

 Output, files and processes are described by the action values below; the
 caller performs them.
 */
module Dispatch {
  import opened Text
  import opened Process
  import opened Desktop
  import opened Filtering
  import opened Engine
  import opened Startup
  import MenuTree
  import EngineFacts

  /** What the flat selector does with its outcome. */
  datatype TuiAction =
    | NoAction
    | Print(text: String)
    | WriteSelection(path: String, contents: String)
    | LaunchApp(path: String)
    | ReturnSelection(value: String)

  /** The first application called `name`, in list order (tui.go:350-351). */
  function FirstAppNamed(apps: seq<AppEntry>, name: String): (r: Option<AppEntry>)
    ensures r.Some? ==> r.value in apps && r.value.name == name
    ensures r.None? <==> forall a :: a in apps ==> a.name != name
    decreases |apps|
  {
    if apps == [] then None
    else if apps[0].name == name then Some(apps[0])
    else
      assert forall a :: a in apps <==> a == apps[0] || a in apps[1..];
      FirstAppNamed(apps[1..], name)
  }

  /** The application found is the first one carrying the name: no earlier one does. */
  lemma {:induction false} FirstAppNamedIsFirst(apps: seq<AppEntry>, name: String)
    requires FirstAppNamed(apps, name).Some?
    ensures exists i :: && 0 <= i < |apps| && apps[i] == FirstAppNamed(apps, name).value
                        && forall j :: 0 <= j < i ==> apps[j].name != name
    decreases |apps|
  {
    if apps[0].name != name {
      FirstAppNamedIsFirst(apps[1..], name);
      var i :| && 0 <= i < |apps[1..]| && apps[1..][i] == FirstAppNamed(apps[1..], name).value
               && forall j :: 0 <= j < i ==> apps[1..][j].name != name;
      assert apps[i + 1] == FirstAppNamed(apps, name).value;
    } else {
      assert apps[0] == FirstAppNamed(apps, name).value;
    }
  }

  /**
   The flat selector's outcome handling (tui.go:330-364). Without a selected
   item nothing happens. "dmenu" writes the item and a newline to the output
   file when one is given and prints it otherwise; "apps" starts the first
   application carrying the selected name, or, on a dry run, only prints the
   name, and does nothing when no application carries it; "menu" hands the
   item back to the caller.
   */
  function TuiDispatch(mode: Mode, out: String, dryRun: bool, apps: seq<AppEntry>, outcome: Outcome): (r: TuiAction)
    ensures !outcome.SelectedValue? ==> r == NoAction
    ensures r.LaunchApp? ==> && !dryRun && mode == AppsMode && outcome.SelectedValue?
                             && FirstAppNamed(apps, outcome.value) == Some(AppEntry(outcome.value, r.path))
    ensures r.WriteSelection? ==> mode == DmenuMode && out != "" && r.path == out && r.contents == outcome.value + "\n"
    ensures r.Print? ==> outcome.SelectedValue? && r.text == outcome.value + "\n"
    ensures r.ReturnSelection? <==> mode == MenuMode && outcome.SelectedValue?
    ensures r.ReturnSelection? ==> r.value == outcome.value
    ensures outcome.SelectedValue? && mode == DmenuMode && out != "" ==> r == WriteSelection(out, outcome.value + "\n")
    ensures outcome.SelectedValue? && mode == DmenuMode && out == "" ==> r == Print(outcome.value + "\n")
    ensures outcome.SelectedValue? && mode == AppsMode ==>
              (r.NoAction? <==> forall a :: a in apps ==> a.name != outcome.value)
    ensures r.Print? && mode == AppsMode ==> dryRun
    ensures outcome.SelectedValue? && mode == AppsMode && !dryRun && FirstAppNamed(apps, outcome.value).Some? ==>
              r == LaunchApp(FirstAppNamed(apps, outcome.value).value.path)
  {
    if !outcome.SelectedValue? then NoAction
    else
      var v := outcome.value;
      match mode
      case DmenuMode =>
        if out != "" then WriteSelection(out, v + "\n") else Print(v + "\n")
      case AppsMode =>
        (match FirstAppNamed(apps, v)
         case None => NoAction
         case Some(app) => if dryRun then Print(v + "\n") else LaunchApp(app.path))
      case MenuMode => ReturnSelection(v)
  }

  /** A dry run of the flat selector never starts an application. */
  lemma DryRunNeverLaunches(mode: Mode, out: String, apps: seq<AppEntry>, outcome: Outcome)
    ensures !TuiDispatch(mode, out, true, apps, outcome).LaunchApp?
  {
  }

  /**
   A whole application-list session: the list shows the application names,
   and whatever the events, an application that is started is one of the
   listed applications, found by the name the user selected.
   */
  lemma AppsSessionLaunchesListedApp(apps: seq<AppEntry>, maxItems: int, events: seq<Event>,
                                     expand: Expander, dryRun: bool)
    requires maxItems >= 1
    requires Run(InitialFlat(AppNames(apps), maxItems), events, expand).status == Quit
    ensures var o := OutcomeOf(Run(InitialFlat(AppNames(apps), maxItems), events, expand));
            var r := TuiDispatch(AppsMode, "", dryRun, apps, o);
            && (o.SelectedValue? ==> r.NoAction? || r.Print? || r.LaunchApp?)
            && (r.LaunchApp? ==> exists a :: a in apps && a.path == r.path && a.name == o.value)
            && (o.SelectedValue? && !dryRun ==> r.LaunchApp?)
  {
    var s := InitialFlat(AppNames(apps), maxItems);
    EngineFacts.SessionOutcomes(s, events, expand);
    var o := OutcomeOf(Run(s, events, expand));
    if o.SelectedValue? {
      var i :| 0 <= i < |apps| && AppNames(apps)[i] == o.value;
      assert apps[i] in apps && apps[i].name == o.value;
    }
  }

  /** The names of the applications, in order: the items of the application list (main.go:128-135). */
  function AppNames(apps: seq<AppEntry>): (r: seq<String>)
    ensures |r| == |apps|
    ensures forall i :: 0 <= i < |apps| ==> r[i] == apps[i].name
  {
    seq(|apps|, i requires 0 <= i < |apps| => apps[i].name)
  }

  // ---------------------------------------------------------------------------
  // The persistent menu

  /** What the menu does with its staged command. */
  datatype MenuAction = NoCommand | EchoCommand(text: String) | RunCommand(process: ProcessSpec)

  /**
   The staged-command handling after the menu stops (menu.go:156-169): on a
   dry run the command is printed after "DRY-RUN: "; otherwise it is run,
   in the foreground or detached as its entry's `visible` says. Without a
   staged command nothing happens.
   */
  function MenuDispatch(outcome: Outcome, dryRun: bool): (r: MenuAction)
    ensures r.NoCommand? <==> !outcome.SelectedCommand? || outcome.cmd == ""
    ensures r.EchoCommand? <==> outcome.SelectedCommand? && outcome.cmd != "" && dryRun
    ensures r.EchoCommand? ==> r.text == "DRY-RUN: " + outcome.cmd + "\n"
    ensures r.RunCommand? ==> && outcome.SelectedCommand? && !dryRun
                              && r.process == ExecuteCommand(outcome.cmd, outcome.visible)
  {
    if outcome.SelectedCommand? && outcome.cmd != "" then
      if dryRun then EchoCommand("DRY-RUN: " + outcome.cmd + "\n")
      else RunCommand(ExecuteCommand(outcome.cmd, outcome.visible))
    else NoCommand
  }

  /**
   The error RunPersistentMenuTUI returns (menu.go:156-170): when a command
   is run and fails, its error; otherwise the selector's own error, if any.
   A dry run never reports a command error.
   */
  function MenuError<E>(action: MenuAction, loopError: Option<E>, runError: Option<E>): (r: Option<E>)
    ensures action.RunCommand? && runError.Some? ==> r == runError
    ensures !(action.RunCommand? && runError.Some?) ==> r == loopError
  {
    if action.RunCommand? && runError.Some? then runError else loopError
  }

  /**
   A whole menu session: once the loop stops, it either ends without a
   command, or its staged command is echoed (dry run) or run with the
   entry's visibility; a command runs in the foreground exactly when its
   entry is visible.
   */
  lemma MenuSessionDispatch(root: seq<MenuTree.Entry>, maxItems: int, events: seq<Event>,
                            expand: Expander, dryRun: bool)
    requires maxItems >= 1
    requires Run(InitialMenu(root, maxItems), events, expand).status == Quit
    ensures var result := Run(InitialMenu(root, maxItems), events, expand);
            var a := MenuDispatch(OutcomeOf(result), dryRun);
            && (a.NoCommand? <==> result.pending.None?)
            && (dryRun ==> !a.RunCommand?)
            && (a.RunCommand? ==> a.process.wait == result.pending.value.visible)
  {
    var s := InitialMenu(root, maxItems);
    var result := Run(s, events, expand);
    EngineFacts.SessionOutcomes(s, events, expand);
    PendingCommandNonEmpty(s, events, expand);
  }

  /** A command staged by the menu is never empty: only an entry with a command stages one. */
  lemma {:induction false} PendingCommandNonEmpty(s: State, events: seq<Event>, expand: Expander)
    requires Inv(s)
    ensures Run(s, events, expand).pending.Some? ==> Run(s, events, expand).pending.value.cmd != ""
    decreases |events|
  {
    if events != [] {
      var r := Step(s, events[0], expand);
      StepKeepsInv(s, events[0], expand);
      if r.status == Active {
        PendingCommandNonEmpty(r.state, events[1..], expand);
      } else if r.pending.Some? {
        StepStagesNonEmpty(s, events[0], expand);
      }
    }
  }

  lemma StepStagesNonEmpty(s: State, e: Event, expand: Expander)
    requires Inv(s)
    requires Step(s, e, expand).pending.Some?
    ensures Step(s, e, expand).pending.value.cmd != ""
  {
    InvSelectable(s);
    var i := FirstActionable(s.current, s.filtered[s.cursor]).value;
    assert Enter(s, expand) == Commit(s, s.current[i], expand);
  }
}

=== FILE: engine.dfy ===
/**
 The selector engine (tui.go): the `model` record and its `Update` step,
 written as a pure function from a state and one event to the next state,
 whether the loop goes on, and the command staged for execution, if any.

 The two globals greg uses to hand a chosen menu command to its caller
 (`pendingExec`, `pendingVisible`) become the `pending` part of a step's
 result. Running a generator command and decoding its output is the oracle
 `expand`: `Some(entries)` on success, `None` when the command or the decoding
 fails.
 */
module Engine {
  import opened Text
  import opened MenuTree
  import opened Filtering

  /** The messages `Update` reacts to: a key press (by its key name), a resize, the inactivity timeout. */
  datatype Event = Key(name: String) | Resize(width: int, height: int) | Timeout

  /** Whether the program goes on reading events (`nil` command) or stops (`tea.Quit`). */
  datatype Status = Active | Quit

  /** A menu command staged for execution, and whether it runs attached to the terminal. */
  datatype Command = Command(cmd: String, visible: bool)

  /**
   The selector's state (`model`, tui.go:23-51) without its presentation
   fields. `allItems` is the list of flat mode; `current`, `labels` and the
   three parallel stacks belong to menu mode. `cursor` is -1 once the
   selector has been cancelled. `maxItems` is the configured window height.
   */
  datatype State = State(
    isMenu: bool,
    allItems: seq<String>,
    current: seq<Entry>,
    labels: seq<String>,
    filtered: seq<String>,
    input: String,
    cursor: int,
    windowStart: int,
    width: int,
    height: int,
    maxItems: int,
    menuStack: seq<seq<Entry>>,
    cursorStack: seq<int>,
    windowStartStack: seq<int>)

  datatype StepResult = StepResult(state: State, status: Status, pending: Option<Command>)

  /** Runs a generator command and decodes the entries it prints; `None` when either fails. */
  type Expander = String -> Option<seq<Entry>>

  /** The list the query filters: the current level's labels in menu mode, the items otherwise. */
  function Source(s: State): (r: seq<String>)
    ensures s.isMenu ==> r == s.labels
    ensures !s.isMenu ==> r == s.allItems
  {
    if s.isMenu then s.labels else s.allItems
  }

  /**
   What holds of every state the loop is still reading events in: the stacks
   stay parallel, `filtered` is the filter of `Source(s)` by the query, the
   cursor and window start are 0 or index an item of `filtered`, every saved
   level is non-empty, saved positions are not negative, and the query holds
   no `j` or `k` (those keys move the cursor instead).
   */
  predicate Inv(s: State) {
    StacksOk(s) && ViewOk(s) && 'j' !in s.input && 'k' !in s.input
  }

  /** The three stacks stay parallel and hold only non-empty levels and non-negative positions. */
  predicate StacksOk(s: State) {
    && |s.menuStack| == |s.cursorStack| == |s.windowStartStack|
    && (!s.isMenu ==> s.menuStack == [])
    && (forall i :: 0 <= i < |s.menuStack| ==> s.menuStack[i] != [])
    && (forall i :: 0 <= i < |s.cursorStack| ==> s.cursorStack[i] >= 0)
    && (forall i :: 0 <= i < |s.windowStartStack| ==> s.windowStartStack[i] >= 0)
  }

  /** The list shown is the filter of `Source(s)`, and cursor and window start are 0 or index it. */
  predicate ViewOk(s: State) {
    && s.maxItems >= 1
    && (s.isMenu ==> s.labels == Labels(s.current))
    && s.filtered == Filter(Source(s), s.input)
    && 0 <= s.cursor && (s.cursor == 0 || s.cursor < |s.filtered|)
    && 0 <= s.windowStart && (s.windowStart == 0 || s.windowStart < |s.filtered|)
  }

  /**
   Every row of the list comes from the filtered source and matches the
   query: an item of the list in flat mode, a label of the current level in
   menu mode.
   */
  lemma ShownItemsFromSource(s: State, i: int)
    requires ViewOk(s) && 0 <= i < |s.filtered|
    ensures s.filtered[i] in Source(s) && Matches(s.filtered[i], s.input)
    ensures s.isMenu ==> s.filtered[i] in Labels(s.current)
    ensures !s.isMenu ==> s.filtered[i] in s.allItems
  {
    FilterKeepsExactlyMatches(Source(s), s.input);
    assert s.filtered[i] in Filter(Source(s), s.input);
  }

  /** `filtered[cursor]` can be read whenever there is something to read (tui.go:123, 334). */
  predicate Selectable(s: State) {
    s.filtered == [] || 0 <= s.cursor < |s.filtered|
  }

  /** What holds once the loop has stopped: cancelled, or the cursor can be read. */
  predicate Finished(s: State) {
    && (s.cursor == -1 || Selectable(s))
    && 0 <= s.windowStart <= |s.filtered|
  }

  /** The highlighted item lies inside the window of `maxItems` rows starting at `windowStart`. */
  predicate InWindow(s: State) {
    s.maxItems >= 1 && s.windowStart <= s.cursor < s.windowStart + s.maxItems
  }

  lemma InvSelectable(s: State)
    requires Inv(s)
    ensures Selectable(s) && Finished(s)
  {
  }

  // ---------------------------------------------------------------------------
  // Initial states

  /** initialModelWithItems (tui.go:367-392): the flat selector over `items`. */
  function InitialFlat(items: seq<String>, maxItems: int): (s: State)
    requires maxItems >= 1
    ensures Inv(s) && !s.isMenu
    ensures s.filtered == items && s.cursor == 0 && s.windowStart == 0 && s.input == ""
    ensures s.allItems == items && s.maxItems == maxItems
  {
    FilterEmptyQuery(items);
    State(false, items, [], [], items, "", 0, 0, 0, 0, maxItems, [], [], [])
  }

  /** initialPersistentMenuModel (tui.go:394-423): the menu selector at the root level `root`. */
  function InitialMenu(root: seq<Entry>, maxItems: int): (s: State)
    requires maxItems >= 1
    ensures Inv(s) && s.isMenu
    ensures s.current == root && s.filtered == Labels(root)
    ensures s.cursor == 0 && s.windowStart == 0 && s.input == ""
    ensures s.menuStack == [] && s.cursorStack == [] && s.windowStartStack == []
    ensures s.maxItems == maxItems
  {
    var labels := Labels(root);
    FilterEmptyQuery(labels);
    State(true, [], root, labels, labels, "", 0, 0, 0, 0, maxItems, [], [], [])
  }

  // ---------------------------------------------------------------------------
  // The pieces of Update

  /**
   filterItems (tui.go:219-248). An empty query restores the whole source and
   resets cursor and window to the top; otherwise `filtered` becomes the
   filter of `Source(s)`, and cursor and window start each fall back to 0 only
   when they no longer index an item.
   */
  function Refilter(s: State): (r: State)
    ensures r == s.(filtered := r.filtered, cursor := r.cursor, windowStart := r.windowStart)
    ensures r.filtered == Filter(Source(s), s.input)
    ensures s.input == "" ==> r.filtered == Source(s) && r.cursor == 0 && r.windowStart == 0
    ensures s.input != "" && s.cursor < |r.filtered| ==> r.cursor == s.cursor
    ensures s.input != "" && s.cursor >= |r.filtered| ==> r.cursor == 0
    ensures s.input != "" && s.windowStart < |r.filtered| ==> r.windowStart == s.windowStart
    ensures s.input != "" && s.windowStart >= |r.filtered| ==> r.windowStart == 0
  {
    var src := Source(s);
    if s.input == "" then
      FilterEmptyQuery(src);
      s.(filtered := src, cursor := 0, windowStart := 0)
    else
      var f := Filter(src, s.input);
      s.(filtered := f,
         cursor := if s.cursor >= |f| then 0 else s.cursor,
         windowStart := if s.windowStart >= |f| then 0 else s.windowStart)
  }

  /**
   updateMenuLabels (tui.go:425-432) after `current` is set to `level`: the
   query is cleared and the whole level is listed.
   */
  function ShowLevel(s: State, level: seq<Entry>): (r: State)
    ensures r == s.(current := level, labels := Labels(level), filtered := Labels(level), input := "")
    ensures r.filtered == Filter(Labels(level), "")
  {
    FilterEmptyQuery(Labels(level));
    s.(current := level, labels := Labels(level), filtered := Labels(level), input := "")
  }

  /**
   "up" / "k" (tui.go:176-182): the cursor moves up one row unless it is at
   the top, and the window scrolls by one row when the cursor leaves it.
   Nothing else changes, a cursor inside the window stays inside it, and the
   invariant is kept.
   */
  function MoveUp(s: State): (r: State)
    ensures r == s.(cursor := r.cursor, windowStart := r.windowStart)
    ensures s.cursor > 0 ==> r.cursor == s.cursor - 1
    ensures s.cursor <= 0 ==> r == s
    ensures s.windowStart - 1 <= r.windowStart <= s.windowStart
    ensures r.windowStart != s.windowStart ==> r.cursor < s.windowStart
    ensures InWindow(s) ==> InWindow(r)
    ensures Inv(s) ==> Inv(r)
  {
    if s.cursor > 0 then
      var c := s.cursor - 1;
      s.(cursor := c, windowStart := if c < s.windowStart then s.windowStart - 1 else s.windowStart)
    else
      s
  }

  /**
   "down" / "j" (tui.go:183-189): the cursor moves down one row unless it is
   on the last item, and the window scrolls by one row when the cursor leaves
   it. Nothing else changes, a cursor inside the window stays inside it, and
   the invariant is kept.
   */
  function MoveDown(s: State): (r: State)
    ensures r == s.(cursor := r.cursor, windowStart := r.windowStart)
    ensures s.cursor < |s.filtered| - 1 ==> r.cursor == s.cursor + 1
    ensures s.cursor >= |s.filtered| - 1 ==> r == s
    ensures s.windowStart <= r.windowStart <= s.windowStart + 1
    ensures r.windowStart != s.windowStart ==> r.cursor >= s.windowStart + s.maxItems
    ensures InWindow(s) ==> InWindow(r)
    ensures Inv(s) ==> Inv(r)
  {
    if s.cursor < |s.filtered| - 1 then
      var c := s.cursor + 1;
      s.(cursor := c, windowStart := if c >= s.windowStart + s.maxItems then s.windowStart + 1 else s.windowStart)
    else
      s
  }

  /**
   "backspace" (tui.go:191-196): on an empty query nothing happens; otherwise
   the last byte of the query is dropped, `Source(s)` is filtered again and
   the window returns to the top. The cursor goes to the top when the query
   becomes empty, and otherwise stays unless it lies past the new list. The
   level, its labels and the saved levels are untouched.
   */
  function Backspace(s: State): (r: State)
    ensures r == s.(input := r.input, filtered := r.filtered, cursor := r.cursor, windowStart := r.windowStart)
    ensures s.input == "" ==> r == s
    ensures s.input != "" ==> && r.input == s.input[..|s.input| - 1]
                              && r.filtered == Filter(Source(s), r.input)
                              && r.windowStart == 0
    ensures s.input != "" && r.input == "" ==> r.cursor == 0
    ensures s.input != "" && r.input != "" ==>
              r.cursor == if s.cursor < |r.filtered| then s.cursor else 0
    ensures Inv(s) ==> Inv(r)
  {
    if |s.input| > 0 then
      var t := s.(input := s.input[..|s.input| - 1]);
      assert 'j' !in s.input ==> 'j' !in t.input;
      assert 'k' !in s.input ==> 'k' !in t.input;
      Refilter(t).(windowStart := 0)
    else
      s
  }

  /**
   A one-byte key that is none of the named keys (tui.go:198-203): it is
   appended to the query, `Source(s)` is filtered again and the window returns
   to the top. The invariant is kept for every key but "j" and "k", which
   `Step` never passes here.
   */
  function TypeKey(s: State, key: String): (r: State)
    requires |key| == 1
    ensures r == s.(input := r.input, filtered := r.filtered, cursor := r.cursor, windowStart := r.windowStart)
    ensures r.input == s.input + key
    ensures r.filtered == Filter(Source(s), r.input)
    ensures r.windowStart == 0
    ensures s.cursor < |r.filtered| ==> r.cursor == s.cursor
    ensures s.cursor >= |r.filtered| ==> r.cursor == 0
    ensures r.menuStack == s.menuStack && r.current == s.current
    ensures Inv(s) && key != "j" && key != "k" ==> Inv(r)
  {
    var t := s.(input := s.input + key);
    assert key != "j" ==> 'j' !in key;
    assert key != "k" ==> 'k' !in key;
    Refilter(t).(windowStart := 0)
  }

  /**
   Going down one level (tui.go:132-141 and 147-156): the current level, the
   cursor and the window start are pushed, one onto each stack; `level`
   becomes the current level, listed whole from the top with an empty query.
   */
  function Descend(s: State, level: seq<Entry>): (r: State)
    ensures r.menuStack == s.menuStack + [s.current]
    ensures r.cursorStack == s.cursorStack + [s.cursor]
    ensures r.windowStartStack == s.windowStartStack + [s.windowStart]
    ensures r.current == level && r.filtered == Labels(level) && r.input == ""
    ensures r.cursor == 0 && r.windowStart == 0
  {
    var t := s.(cursorStack := s.cursorStack + [s.cursor],
                windowStartStack := s.windowStartStack + [s.windowStart],
                menuStack := s.menuStack + [s.current]);
    ShowLevel(t, level).(cursor := 0, windowStart := 0)
  }

  /**
   "esc" with saved levels (tui.go:74-106): the last saved level becomes the
   current one, listed whole with an empty query; one entry is popped from
   each stack; the saved cursor is restored, moved to the last item when it
   lies past the end (-1 for an empty level), and the saved window start is
   restored, or 0 when it lies past the end.
   */
  function Ascend(s: State): (r: State)
    requires |s.menuStack| > 0
    ensures r.current == s.menuStack[|s.menuStack| - 1]
    ensures r.menuStack == s.menuStack[..|s.menuStack| - 1]
    ensures r.filtered == Labels(r.current) && r.input == ""
    ensures |s.cursorStack| > 0 ==> && r.cursorStack == s.cursorStack[..|s.cursorStack| - 1]
                                    && r.cursor == RestoredCursor(s.cursorStack[|s.cursorStack| - 1], |r.filtered|)
    ensures |s.windowStartStack| > 0 ==> && r.windowStartStack == s.windowStartStack[..|s.windowStartStack| - 1]
                                         && r.windowStart == RestoredStart(s.windowStartStack[|s.windowStartStack| - 1], |r.filtered|)
  {
    var level := s.menuStack[|s.menuStack| - 1];
    var t := ShowLevel(s.(menuStack := s.menuStack[..|s.menuStack| - 1]), level);
    var n := |Labels(level)|;
    var cs := s.cursorStack;
    var ws := s.windowStartStack;
    t.(cursorStack := if |cs| > 0 then cs[..|cs| - 1] else cs,
       cursor := if |cs| > 0 then RestoredCursor(cs[|cs| - 1], n) else 0,
       windowStartStack := if |ws| > 0 then ws[..|ws| - 1] else ws,
       windowStart := if |ws| > 0 then RestoredStart(ws[|ws| - 1], n) else 0)
  }

  /** A saved cursor on a level of `n` items: kept when in range, else the last item (-1 for none). */
  function RestoredCursor(saved: int, n: nat): (c: int)
    ensures saved < n ==> c == saved
    ensures saved >= n ==> c == n - 1
  {
    if saved >= n then (if n == 0 then -1 else n - 1) else saved
  }

  /** A saved window start on a level of `n` items: kept when in range, else 0. */
  function RestoredStart(saved: int, n: nat): (w: int)
    ensures saved < n ==> w == saved
    ensures saved >= n ==> w == 0
  {
    if saved >= n then 0 else saved
  }

  /** Going back up from a menu state keeps the invariant: saved levels are non-empty, so the cursor lands on an item. */
  lemma AscendKeepsInv(s: State)
    requires Inv(s) && s.isMenu && |s.menuStack| > 0
    ensures Inv(Ascend(s))
  {
    AscendKeepsStacks(s);
    AscendKeepsView(s);
  }

  lemma AscendKeepsStacks(s: State)
    requires StacksOk(s) && |s.menuStack| > 0
    ensures StacksOk(Ascend(s))
  {
  }

  lemma AscendKeepsView(s: State)
    requires Inv(s) && s.isMenu && |s.menuStack| > 0
    ensures ViewOk(Ascend(s))
  {
    var r := Ascend(s);
    var n := |s.menuStack|;
    assert s.menuStack[n - 1] != [];
    assert s.cursorStack[n - 1] >= 0;
    assert s.windowStartStack[n - 1] >= 0;
    FilterEmptyQuery(r.labels);
  }

  /**
   The position in `level` of the entry "enter" acts on: the first entry
   labelled `caption` that has an action. Entries with that label but no
   action are passed over (tui.go:125-166).
   */
  function FirstActionable(level: seq<Entry>, caption: String): (r: Option<nat>)
    ensures r.Some? ==> && r.value < |level|
                        && level[r.value].caption == caption
                        && HasAction(level[r.value])
                        && forall j :: 0 <= j < r.value && level[j].caption == caption ==> !HasAction(level[j])
    ensures r.None? ==> forall j :: 0 <= j < |level| && level[j].caption == caption ==> !HasAction(level[j])
    decreases |level|
  {
    if level == [] then None
    else if level[0].caption == caption && HasAction(level[0]) then Some(0)
    else
      match FirstActionable(level[1..], caption)
      case None => None
      case Some(k) => Some(k + 1)
  }

  /**
   Acting on a chosen entry (tui.go:131-165): a submenu is entered; a
   generator is run and, when it succeeds, its entries are entered as a
   submenu, while a failure leaves the state as it was; otherwise the entry's
   command is staged and the loop stops.
   */
  function Commit(s: State, e: Entry, expand: Expander): (r: StepResult)
    requires HasAction(e)
    ensures |e.items| > 0 ==> r == StepResult(Descend(s, e.items), Active, None)
    ensures |e.items| == 0 && e.generator != "" && expand(e.generator).None? ==> r == StepResult(s, Active, None)
    ensures (|e.items| == 0 && e.generator != "" && expand(e.generator).Some?) ==>
              r == StepResult(Descend(s, expand(e.generator).value), Active, None)
    ensures |e.items| == 0 && e.generator == "" ==> r == StepResult(s, Quit, Some(Command(e.exec, e.visible)))
    ensures r.pending.Some? ==> r.pending.value.cmd != ""
  {
    if |e.items| > 0 then
      StepResult(Descend(s, e.items), Active, None)
    else if e.generator != "" then
      match expand(e.generator)
      case Some(generated) => StepResult(Descend(s, generated), Active, None)
      case None => StepResult(s, Active, None)
    else
      StepResult(s, Quit, Some(Command(e.exec, e.visible)))
  }

  /**
   "enter" (tui.go:118-172). In flat mode it always stops the loop. In menu
   mode an empty list makes it a no-op; otherwise it acts on the first entry
   of the current level that carries the highlighted label and has an
   action, and does nothing when there is none.
   */
  function Enter(s: State, expand: Expander): (r: StepResult)
    requires s.isMenu ==> Selectable(s)
    ensures !s.isMenu ==> r == StepResult(s, Quit, None)
    ensures s.isMenu && s.filtered == [] ==> r == StepResult(s, Active, None)
    ensures s.isMenu && s.filtered != [] ==>
              match FirstActionable(s.current, s.filtered[s.cursor])
              case None => r == StepResult(s, Active, None)
              case Some(i) => r == Commit(s, s.current[i], expand)
    ensures r.status == Active ==> r.pending.None?
    ensures r.pending.Some? ==> s.isMenu && r.state == s && r.status == Quit
  {
    if !s.isMenu then
      StepResult(s, Quit, None)
    else if |s.filtered| == 0 then
      StepResult(s, Active, None)
    else
      match FirstActionable(s.current, s.filtered[s.cursor])
      case None => StepResult(s, Active, None)
      case Some(i) => Commit(s, s.current[i], expand)
  }

  /** Stopping without a selection: esc at the top, ctrl+c, timeout (tui.go:108-114, 211-213). */
  function Cancel(s: State): (r: StepResult)
    ensures r.status == Quit && r.pending.None? && r.state.cursor == -1
    ensures r.state == s.(cursor := -1)
  {
    StepResult(s.(cursor := -1), Quit, None)
  }

  /**
   model.Update (tui.go:58-217): one event. Key names are compared in the
   order greg compares them — "esc", "ctrl+c", "enter", then "up"/"k", "down"/"j",
   "backspace", and last any other one-byte key, which is typed into the
   query; longer unknown key names are ignored. A resize only records the
   new size; the timeout cancels.

   From a state satisfying `Inv`, a step that keeps the loop going keeps
   `Inv`, and a step that stops it leaves a `Finished` state. Only "enter" in
   menu mode stages a command, and only "enter" in flat mode stops the loop
   with the cursor still on an item.
   */
  function Step(s: State, e: Event, expand: Expander): (r: StepResult)
    requires e == Key("enter") && s.isMenu ==> Selectable(s)
    ensures r.state.isMenu == s.isMenu && r.state.maxItems == s.maxItems && r.state.allItems == s.allItems
    ensures r.status == Active ==> r.pending.None?
    ensures r.pending.Some? ==> s.isMenu && e == Key("enter") && r.status == Quit
    ensures r.status == Quit && r.pending.None? && r.state.cursor != -1 ==> !s.isMenu && e == Key("enter")
    ensures e.Resize? ==> r == StepResult(s.(width := e.width, height := e.height), Active, None)
    ensures e == Key("up") || e == Key("k") ==> r == StepResult(MoveUp(s), Active, None)
    ensures e == Key("down") || e == Key("j") ==> r == StepResult(MoveDown(s), Active, None)
  {
    match e
    case Key(k) =>
      if k == "esc" then
        if s.isMenu && |s.menuStack| > 0 then
          StepResult(Ascend(s), Active, None)
        else Cancel(s)
      else if k == "ctrl+c" then
        Cancel(s)
      else if k == "enter" then
        Enter(s, expand)
      else if k == "up" || k == "k" then
        StepResult(MoveUp(s), Active, None)
      else if k == "down" || k == "j" then
        StepResult(MoveDown(s), Active, None)
      else if k == "backspace" then
        StepResult(Backspace(s), Active, None)
      else if |k| == 1 then
        StepResult(TypeKey(s, k), Active, None)
      else
        StepResult(s, Active, None)
    case Resize(w, h) =>
      StepResult(s.(width := w, height := h), Active, None)
    case Timeout =>
      Cancel(s)
  }

  /**
   The remaining keys of `Step`: "enter" is `Enter`, "backspace" is
   `Backspace`, any one-byte key other than "j" and "k" is typed with
   `TypeKey`, "esc" in a nested menu level goes back up with `Ascend`, and a
   longer key name greg does not know leaves everything as it was.
   */
  lemma OtherKeys(s: State, e: Event, expand: Expander)
    requires e == Key("enter") && s.isMenu ==> Selectable(s)
    ensures e == Key("enter") ==> Step(s, e, expand) == Enter(s, expand)
    ensures e == Key("backspace") ==> Step(s, e, expand) == StepResult(Backspace(s), Active, None)
    ensures e.Key? && |e.name| == 1 && e.name != "j" && e.name != "k" ==>
              Step(s, e, expand) == StepResult(TypeKey(s, e.name), Active, None)
    ensures e == Key("esc") && s.isMenu && |s.menuStack| > 0 ==> Step(s, e, expand) == StepResult(Ascend(s), Active, None)
    ensures e.Key? && |e.name| > 1 && e.name !in ["esc", "ctrl+c", "enter", "up", "down", "backspace"] ==>
              Step(s, e, expand) == StepResult(s, Active, None)
  {
  }

  /** Entering a non-empty menu level keeps the invariant; the level left behind is saved non-empty. */
  lemma DescendKeepsInv(s: State, level: seq<Entry>)
    requires Inv(s) && s.isMenu && s.current != []
    ensures Inv(Descend(s, level))
  {
    DescendKeepsStacks(s, level);
    DescendKeepsView(s, level);
  }

  lemma DescendKeepsStacks(s: State, level: seq<Entry>)
    requires StacksOk(s) && s.isMenu && s.current != [] && s.cursor >= 0 && s.windowStart >= 0
    ensures StacksOk(Descend(s, level))
  {
    var r := Descend(s, level);
    assert forall i :: 0 <= i < |s.menuStack| ==> r.menuStack[i] == s.menuStack[i];
    assert forall i :: 0 <= i < |s.cursorStack| ==> r.cursorStack[i] == s.cursorStack[i];
    assert forall i :: 0 <= i < |s.windowStartStack| ==> r.windowStartStack[i] == s.windowStartStack[i];
  }

  lemma DescendKeepsView(s: State, level: seq<Entry>)
    requires s.isMenu && s.maxItems >= 1
    ensures ViewOk(Descend(s, level))
  {
    FilterEmptyQuery(Labels(level));
  }

  /**
   "enter" keeps the invariant when the loop goes on: the highlighted label
   comes from a non-empty current level, so a descent saves a non-empty level.
   */
  lemma EnterKeepsInv(s: State, expand: Expander)
    requires Inv(s)
    ensures Enter(s, expand).status == Active ==> Inv(Enter(s, expand).state)
  {
    if s.isMenu && s.filtered != [] {
      assert s.current != [];
      match FirstActionable(s.current, s.filtered[s.cursor])
      case None =>
      case Some(i) =>
        var e := s.current[i];
        if |e.items| > 0 {
          DescendKeepsInv(s, e.items);
        } else if e.generator != "" && expand(e.generator).Some? {
          DescendKeepsInv(s, expand(e.generator).value);
        }
    }
  }

  /**
   From a state satisfying `Inv`, a step that keeps the loop going keeps
   `Inv`, and a step that stops it leaves a `Finished` state.
   */
  lemma {:induction false} StepKeepsInv(s: State, e: Event, expand: Expander)
    requires Inv(s)
    ensures Step(s, e, expand).status == Active ==> Inv(Step(s, e, expand).state)
    ensures Step(s, e, expand).status == Quit ==> Finished(Step(s, e, expand).state)
  {
    match e
    case Key(k) =>
      if k == "esc" {
        if s.isMenu && |s.menuStack| > 0 {
          AscendKeepsInv(s);
        }
      } else if k == "enter" {
        EnterKeepsInv(s, expand);
      }
    case Resize(_, _) =>
    case Timeout =>
  }

  /**
   The event loop: `Step` applied to each event in turn until one stops the
   loop; the result is the state after the last step taken. Started from a
   state satisfying `Inv`, the loop is still going only in a state
   satisfying `Inv` (so, among others, the query never holds `j` or `k`),
   it stops only in a `Finished` state, and a command is staged only in
   menu mode; in menu mode it stops either with a command or cancelled.
   */
  function Run(s: State, events: seq<Event>, expand: Expander): (r: StepResult)
    requires Inv(s)
    ensures r.state.isMenu == s.isMenu
    ensures r.status == Active ==> Inv(r.state) && r.pending.None?
    ensures r.status == Quit ==> Finished(r.state)
    ensures r.pending.Some? ==> s.isMenu && r.status == Quit
    ensures r.status == Quit && s.isMenu ==> r.pending.Some? || r.state.cursor == -1
    decreases |events|
  {
    if events == [] then
      StepResult(s, Active, None)
    else
      var r := Step(s, events[0], expand);
      StepKeepsInv(s, events[0], expand);
      if r.status == Quit then r else Run(r.state, events[1..], expand)
  }

  // ---------------------------------------------------------------------------
  // The window shown by View

  /**
   The rows View lists (tui.go:269-271): at most `maxItems` items of
   `filtered`, starting at `windowStart`. While there are matches the window
   is never empty, and a cursor inside the window is shown on its row.
   */
  function Window(s: State): (r: seq<String>)
    requires 0 <= s.windowStart <= |s.filtered| && s.maxItems >= 0
    ensures |r| == if s.windowStart + s.maxItems < |s.filtered| then s.maxItems else |s.filtered| - s.windowStart
    ensures forall i :: 0 <= i < |r| ==> r[i] == s.filtered[s.windowStart + i]
    ensures Inv(s) && s.filtered != [] ==> r != []
    ensures InWindow(s) && s.cursor < |s.filtered| ==> r[s.cursor - s.windowStart] == s.filtered[s.cursor]
  {
    var end := if s.windowStart + s.maxItems < |s.filtered| then s.windowStart + s.maxItems else |s.filtered|;
    s.filtered[s.windowStart..end]
  }

  // ---------------------------------------------------------------------------
  // The outcome handed to dispatch

  /**
   What a stopped selector hands to its caller, replacing the globals
   `pendingExec` / `pendingVisible` and the final `cursor`.
   */
  datatype Outcome =
    | Cancelled
    | NoSelection
    | SelectedValue(value: String)
    | SelectedCommand(cmd: String, visible: bool)

  /**
   The outcome of a stopped loop (tui.go:330-334, menu.go:156): a staged
   command wins; otherwise there is no selection exactly when the list is
   empty or the cursor is -1, and the selection is the highlighted item.
   */
  function OutcomeOf(r: StepResult): (o: Outcome)
    requires r.status == Quit && Finished(r.state)
    ensures o.SelectedCommand? <==> r.pending.Some?
    ensures o.SelectedCommand? ==> o.cmd == r.pending.value.cmd && o.visible == r.pending.value.visible
    ensures (o.Cancelled? || o.NoSelection?) <==> r.pending.None? && (r.state.filtered == [] || r.state.cursor == -1)
    ensures o.SelectedValue? ==> && 0 <= r.state.cursor < |r.state.filtered|
                                 && o.value == r.state.filtered[r.state.cursor]
                                 && o.value in r.state.filtered
  {
    if r.pending.Some? then SelectedCommand(r.pending.value.cmd, r.pending.value.visible)
    else if r.state.cursor == -1 then Cancelled
    else if r.state.filtered == [] then NoSelection
    else SelectedValue(r.state.filtered[r.state.cursor])
  }
}

=== FILE: engine_facts.dfy ===
/**
 Properties of the selector engine over several events: going down a level
 and back, how the loop can stop, and what typing does to the window.
 */
module EngineFacts {
  import opened Text
  import opened MenuTree
  import opened Filtering
  import opened Engine

  /**
   Going down a level and straight back up, with no query typed, restores
   the state exactly: the level, its list, the cursor and the window start.
   */
  lemma DescendThenAscendRestores(s: State, level: seq<Entry>)
    requires Inv(s) && s.isMenu && s.input == "" && s.current != []
    ensures Ascend(Descend(s, level)) == s
  {
    FilterEmptyQuery(s.labels);
    var d := Descend(s, level);
    var r := Ascend(d);
    assert d.menuStack[..|d.menuStack| - 1] == s.menuStack;
    assert d.cursorStack[..|d.cursorStack| - 1] == s.cursorStack;
    assert d.windowStartStack[..|d.windowStartStack| - 1] == s.windowStartStack;
  }

  /** An "enter" that goes one level deeper is a `Descend` into some level. */
  lemma EnterDescends(s: State, expand: Expander) returns (level: seq<Entry>)
    requires Inv(s) && s.isMenu
    requires Step(s, Key("enter"), expand).status == Active
    requires |Step(s, Key("enter"), expand).state.menuStack| > |s.menuStack|
    ensures Step(s, Key("enter"), expand).state == Descend(s, level)
    ensures s.current != []
  {
    var i := FirstActionable(s.current, s.filtered[s.cursor]).value;
    var e := s.current[i];
    level := if |e.items| > 0 then e.items else expand(e.generator).value;
  }

  /**
   The same round trip as events: when "enter" opens a submenu (or a
   generated one) from an unfiltered menu, "esc" brings back exactly the
   state before it.
   */
  lemma EnterThenEscRestores(s: State, expand: Expander)
    requires Inv(s) && s.isMenu && s.input == ""
    requires Step(s, Key("enter"), expand).status == Active
    requires |Step(s, Key("enter"), expand).state.menuStack| > |s.menuStack|
    ensures Run(s, [Key("enter"), Key("esc")], expand) == StepResult(s, Active, None)
  {
    var level := EnterDescends(s, expand);
    var d := Descend(s, level);
    DescendThenAscendRestores(s, level);
    assert Step(d, Key("esc"), expand) == StepResult(s, Active, None);
    StepKeepsInv(s, Key("enter"), expand);
    assert [Key("enter"), Key("esc")][1..] == [Key("esc")];
    assert [Key("esc")][1..] == [];
  }

  /**
   Backspace undoes a typed key: the query and the filtered list are those
   from before the key, with the window back at the top.
   */
  lemma TypeThenBackspace(s: State, key: String, expand: Expander)
    requires Inv(s) && |key| == 1 && key != "j" && key != "k"
    ensures var typed := Step(s, Key(key), expand);
            var back := Step(typed.state, Key("backspace"), expand);
            && typed.status == Active && back.status == Active
            && back.state.input == s.input
            && back.state.filtered == s.filtered
            && back.state.windowStart == 0
  {
    var t := TypeKey(s, key);
    assert (s.input + key)[..|s.input|] == s.input;
    assert Backspace(t).input == s.input;
  }

  /**
   Interrupt and timeout always cancel, at any depth; escape cancels when
   there is no level to go back to (flat mode, or the menu's top level).
   */
  lemma CancellingEvents(s: State, expand: Expander)
    requires Inv(s)
    ensures OutcomeOf(Step(s, Key("ctrl+c"), expand)) == Cancelled
    ensures OutcomeOf(Step(s, Timeout, expand)) == Cancelled
    ensures s.menuStack == [] ==> OutcomeOf(Step(s, Key("esc"), expand)) == Cancelled
  {
  }

  /**
   "up" and "k" move the cursor up one row, "down" and "j" move it down one
   row; at the first or last item they change nothing. The loop goes on,
   nothing is staged, and the query is untouched.
   */
  lemma NavigationKeys(s: State, key: String, expand: Expander)
    requires key in ["up", "k", "down", "j"]
    ensures var r := Step(s, Key(key), expand);
            && r.status == Active && r.pending.None? && r.state.input == s.input
            && r.state.filtered == s.filtered
            && ((key == "up" || key == "k") ==>
                  && (s.cursor > 0 ==> r.state.cursor == s.cursor - 1)
                  && (s.cursor <= 0 ==> r.state == s))
            && ((key == "down" || key == "j") ==>
                  && (s.cursor < |s.filtered| - 1 ==> r.state.cursor == s.cursor + 1)
                  && (s.cursor >= |s.filtered| - 1 ==> r.state == s))
  {
  }

  /**
   In menu mode "enter" on an empty list does nothing; in flat mode it stops
   the loop with no selection.
   */
  lemma EnterOnEmptyList(s: State, expand: Expander)
    requires Inv(s) && s.filtered == []
    ensures s.isMenu ==> Step(s, Key("enter"), expand) == StepResult(s, Active, None)
    ensures !s.isMenu ==> OutcomeOf(Step(s, Key("enter"), expand)) == NoSelection
  {
  }

  /**
   What a whole session can end in: a flat selector ends cancelled, with no
   selection or with one of the listed items; a menu ends cancelled or with a
   staged command.
   */
  lemma {:induction false} SessionOutcomes(s: State, events: seq<Event>, expand: Expander)
    requires Inv(s)
    requires Run(s, events, expand).status == Quit
    ensures var o := OutcomeOf(Run(s, events, expand));
            && (!s.isMenu ==> !o.SelectedCommand? && (o.SelectedValue? ==> o.value in s.allItems))
            && (s.isMenu ==> o.Cancelled? || o.SelectedCommand?)
    decreases |events|
  {
    var r := Step(s, events[0], expand);
    StepKeepsInv(s, events[0], expand);
    if r.status == Quit {
      if !s.isMenu && r.state.cursor != -1 && r.state.filtered != [] {
        FilterKeepsExactlyMatches(s.allItems, s.input);
        assert r.state == s;
        assert s.filtered[s.cursor] in s.filtered;
      }
    } else {
      SessionOutcomes(r.state, events[1..], expand);
    }
  }

  /** Four items all matching "a", a 2-row window, and the cursor on the last item, shown in the window's second row. */
  function HidingExample(): State {
    InitialFlat(["a1", "a2", "a3", "a4"], 2).(cursor := 3, windowStart := 2)
  }

  lemma HidingExampleValid()
    ensures Inv(HidingExample()) && InWindow(HidingExample())
  {
    var s := HidingExample();
    assert s.filtered == Filter(s.allItems, "") by {
      FilterEmptyQuery(s.allItems);
    }
  }

  lemma HidingExampleTyped()
    requires Inv(HidingExample())
    ensures var r := TypeKey(HidingExample(), "a");
            Inv(r) && !InWindow(r) && r.cursor == 3 && r.windowStart == 0
  {
    var s := HidingExample();
    AllMatchA(s.allItems);
    assert s.input + "a" == "a";
  }

  /**
   Typing can leave the highlighted item outside the window: the query is
   extended, the cursor is kept because it still indexes the new list, but
   the window start goes back to 0. Here the window shows 2 rows, the cursor
   is on the fourth of four items, and typing "a" keeps all four.
   */
  lemma TypingCanHideCursor(expand: Expander)
    ensures var s := HidingExample();
            && Inv(s) && InWindow(s)
            && var r := Step(s, Key("a"), expand);
               r.status == Active && Inv(r.state) && !InWindow(r.state) && r.state.cursor == 3 && r.state.windowStart == 0
  {
    HidingExampleValid();
    HidingExampleTyped();
    var s := HidingExample();
    assert Step(s, Key("a"), expand) == StepResult(TypeKey(s, "a"), Active, None);
  }

  lemma AllMatchA(items: seq<String>)
    requires items == ["a1", "a2", "a3", "a4"]
    ensures Filter(items, "a") == items
  {
    StartsWithAMatches(items[0]);
    StartsWithAMatches(items[1]);
    StartsWithAMatches(items[2]);
    StartsWithAMatches(items[3]);
    assert Filter(items[4..], "a") == [];
    assert Filter(items[3..], "a") == [items[3]] + Filter(items[4..], "a");
    assert Filter(items[2..], "a") == [items[2]] + Filter(items[3..], "a");
    assert Filter(items[1..], "a") == [items[1]] + Filter(items[2..], "a");
    assert Filter(items, "a") == [items[0]] + Filter(items[1..], "a");
  }

  lemma StartsWithAMatches(x: String)
    requires |x| >= 1 && x[0] == 'a'
    ensures Matches(x, "a")
  {
    assert ToLower("a") == "a";
    assert ToLower(x)[0..1] == "a";
    assert OccursAt(ToLower(x), ToLower("a"), 0);
  }
}

=== FILE: filter.dfy ===
/**
 The selector's filter (`filterItems`, tui.go): literal, case-insensitive
 substring matching that keeps the input order and does no ranking.
 */
module Filtering {
  import opened Text

  /** An item matches a query when its lower-cased form contains the lower-cased query. */
  predicate Matches(item: String, query: String): (b: bool)
    ensures b ==> |query| <= |item|
  {
    Contains(ToLower(item), ToLower(query))
  }

  /** Matching ignores case: lower-casing the item or the query first changes nothing. */
  lemma MatchesIgnoresCase(item: String, query: String)
    ensures Matches(item, query) <==> Matches(ToLower(item), ToLower(query))
  {
    ToLowerIdempotent(item);
    ToLowerIdempotent(query);
  }

  /** `a` can be obtained from `b` by deleting elements, keeping the order of the rest. */
  predicate IsSubsequence<T(==)>(a: seq<T>, b: seq<T>)
    decreases |b|
  {
    a == [] || (b != [] && ((a[0] == b[0] && IsSubsequence(a[1..], b[1..])) || IsSubsequence(a, b[1..])))
  }

  /**
   The items of `src` that match `query`, in their source order: a
   subsequence of `src`. `FilterKeepsExactlyMatches` states which items it
   keeps.
   */
  function Filter(src: seq<String>, query: String): (r: seq<String>)
    ensures |r| <= |src|
    ensures IsSubsequence(r, src)
    decreases |src|
  {
    if src == [] then []
    else
      var rest := Filter(src[1..], query);
      assert ([src[0]] + rest)[1..] == rest;
      if Matches(src[0], query) then [src[0]] + rest else rest
  }

  /**
   An item is kept exactly when it matches, and every occurrence of a
   matching item is kept and none of the others; with the subsequence
   property of `Filter` this determines the result completely.
   */
  lemma {:induction false} FilterKeepsExactlyMatches(src: seq<String>, query: String)
    ensures forall x :: x in Filter(src, query) <==> x in src && Matches(x, query)
    ensures forall x :: multiset(Filter(src, query))[x] == if Matches(x, query) then multiset(src)[x] else 0
    decreases |src|
  {
    if src != [] {
      FilterKeepsExactlyMatches(src[1..], query);
      assert src == [src[0]] + src[1..];
      assert forall x :: x in src <==> x == src[0] || x in src[1..];
    }
  }

  /** Filtering distributes over concatenation of the input list. */
  lemma {:induction false} FilterAppend(a: seq<String>, b: seq<String>, query: String)
    ensures Filter(a + b, query) == Filter(a, query) + Filter(b, query)
    decreases |a|
  {
    if a == [] {
      assert a + b == b;
    } else {
      assert (a + b)[1..] == a[1..] + b;
      FilterAppend(a[1..], b, query);
    }
  }

  /** Every string contains the empty string, so the empty query keeps everything. */
  lemma EmptyQueryMatches(item: String)
    ensures Matches(item, "")
  {
    assert OccursAt(ToLower(item), ToLower(""), 0);
  }

  /** An empty query leaves the input list unchanged (tui.go:227-228). */
  lemma {:induction false} FilterEmptyQuery(src: seq<String>)
    ensures Filter(src, "") == src
    decreases |src|
  {
    if src != [] {
      EmptyQueryMatches(src[0]);
      FilterEmptyQuery(src[1..]);
    }
  }

  /** Filtering twice with the same query is the same as filtering once. */
  lemma {:induction false} FilterIdempotent(src: seq<String>, query: String)
    ensures Filter(Filter(src, query), query) == Filter(src, query)
    decreases |src|
  {
    if src != [] {
      FilterIdempotent(src[1..], query);
      if Matches(src[0], query) {
        assert Filter(src, query) == [src[0]] + Filter(src[1..], query);
      }
    }
  }

  /**
   The loop at tui.go:234-239, appending each matching item in turn; it
   computes exactly `Filter`.
   */
  method FilterItems(src: seq<String>, query: String) returns (f: seq<String>)
    ensures f == Filter(src, query)
  {
    f := [];
    var i := 0;
    while i < |src|
      invariant 0 <= i <= |src|
      invariant f == Filter(src[..i], query)
    {
      FilterAppend(src[..i], [src[i]], query);
      assert src[..i + 1] == src[..i] + [src[i]];
      if Matches(src[i], query) {
        f := f + [src[i]];
      }
      i := i + 1;
    }
    assert src[..i] == src;
  }
}

=== FILE: menu_tree.dfy ===
/**
 The hierarchical menu (menu.go): the `Menu` entry tree and the lookup of a
 start submenu by its `id`.
 */
module MenuTree {
  import opened Text

  /**
   One node of the menu tree (`Menu`, menu.go:16-26). A node may set any of
   `items`, `generator` and `exec`; when it is committed, a non-empty `items`
   wins over `generator`, which wins over `exec`.
   */
  datatype Entry = Entry(
    caption: String,
    exec: String,
    generator: String,
    visible: bool,
    items: seq<Entry>,
    id: String)

  /** The labels (`caption`, the Go code's `Label`) of a menu level, in order. */
  function Labels(level: seq<Entry>): (r: seq<String>)
    ensures |r| == |level|
    ensures forall i :: 0 <= i < |level| ==> r[i] == level[i].caption
  {
    seq(|level|, i requires 0 <= i < |level| => level[i].caption)
  }

  /** Committing the entry does something: it opens a submenu, runs a generator or stages a command. */
  predicate HasAction(e: Entry) {
    |e.items| > 0 || e.generator != "" || e.exec != ""
  }

  /** Every node of a forest in pre-order: a node, then its subtree, then its later siblings. */
  function Flatten(level: seq<Entry>): seq<Entry>
    decreases level
  {
    if level == [] then [] else [level[0]] + Flatten(level[0].items) + Flatten(level[1..])
  }

  /** The first node of `nodes` whose id is `id`: the reference for `FindById`. */
  function FirstWithId(nodes: seq<Entry>, id: String): Option<Entry> {
    if nodes == [] then None
    else if nodes[0].id == id then Some(nodes[0])
    else FirstWithId(nodes[1..], id)
  }

  /**
   findMenuByID (menu.go:34-46): a depth-first search that checks a node before
   its children and a node's whole subtree before its later siblings. A result
   is a node of the tree carrying the requested id, and there is no result
   exactly when no node anywhere in the tree has that id.
   */
  function FindById(level: seq<Entry>, id: String): (r: Option<Entry>)
    ensures r.Some? ==> r.value.id == id && r.value in Flatten(level)
    ensures r.None? <==> forall e :: e in Flatten(level) ==> e.id != id
    decreases level
  {
    if level == [] then None
    else if level[0].id == id then Some(level[0])
    else
      var found := if |level[0].items| > 0 then FindById(level[0].items, id) else None;
      assert level[0].items == [] ==> Flatten(level[0].items) == [];
      assert Flatten(level) == [level[0]] + Flatten(level[0].items) + Flatten(level[1..]);
      if found.Some? then found else FindById(level[1..], id)
  }

  lemma {:induction false} FirstWithIdAppend(a: seq<Entry>, b: seq<Entry>, id: String)
    ensures FirstWithId(a + b, id) == if FirstWithId(a, id).Some? then FirstWithId(a, id) else FirstWithId(b, id)
    decreases |a|
  {
    if a != [] {
      assert (a + b)[1..] == a[1..] + b;
      FirstWithIdAppend(a[1..], b, id);
    } else {
      assert a + b == b;
    }
  }

  /** The search returns the first node, in pre-order, whose id matches. */
  lemma {:induction false} FindByIdIsFirstInPreorder(level: seq<Entry>, id: String)
    ensures FindById(level, id) == FirstWithId(Flatten(level), id)
    decreases level
  {
    if level != [] {
      var head := level[0];
      FirstWithIdAppend([head] + Flatten(head.items), Flatten(level[1..]), id);
      FirstWithIdAppend([head], Flatten(head.items), id);
      if head.id != id {
        FindByIdIsFirstInPreorder(head.items, id);
        FindByIdIsFirstInPreorder(level[1..], id);
      }
    }
  }
}

=== FILE: process.dfy ===
/**
 How the program starts shell commands (menu.go:76-95, launch.go:35-48),
 described as a value instead of being performed: every command runs as
 `/bin/sh -c <command>`, either detached or attached to the terminal.
 */
module Process {
  import opened Text

  /**
   A process to start: its argument vector, whether it inherits the
   program's standard streams, whether it starts a new session (`Setsid`),
   and whether the program waits for it to finish.
   */
  datatype ProcessSpec = ProcessSpec(argv: seq<String>, inheritStreams: bool, newSession: bool, wait: bool)

  /** `/bin/sh -c command`: the shell handles quoting in the command. */
  function ShellArgv(command: String): seq<String> {
    ["/bin/sh", "-c", command]
  }

  /** A detached start: no streams, a new session, and no waiting (menu.go:81-87, launch.go:39-42). */
  function Detached(command: String): (p: ProcessSpec)
    ensures p.argv == ["/bin/sh", "-c", command]
    ensures !p.inheritStreams && p.newSession && !p.wait
  {
    ProcessSpec(ShellArgv(command), false, true, false)
  }

  /** An attached run: the program's own streams, its session, and a wait for the exit status (menu.go:90-94). */
  function Attached(command: String): (p: ProcessSpec)
    ensures p.argv == ["/bin/sh", "-c", command]
    ensures p.inheritStreams && !p.newSession && p.wait
  {
    ProcessSpec(ShellArgv(command), true, false, true)
  }

  /**
   executeCommand (menu.go:76-95): a visible command runs attached and is
   waited for; any other is started detached. Either way the shell runs
   exactly the given command.
   */
  function ExecuteCommand(command: String, visible: bool): (p: ProcessSpec)
    ensures p.argv == ["/bin/sh", "-c", command]
    ensures p.wait <==> visible
    ensures p.inheritStreams <==> visible
    ensures p.newSession <==> !visible
  {
    if visible then Attached(command) else Detached(command)
  }
}

=== FILE: startup.dfy ===
/**
 Start-up decisions of the program (main.go): which subcommand runs, how its
 flags adjust the configuration, how many rows the list shows, and which
 menu level a menu session starts from.

 Argument parsing and configuration loading happen before this and are not
 modelled: the parsed arguments and the loaded configuration are inputs.
 The terminal size is an input too, `None` when it cannot be read.
 */
module Startup {
  import opened Text
  import opened MenuTree

  /** The subcommand that runs. */
  datatype Mode = MenuMode | DmenuMode | AppsMode

  /** The flags of `greg menu` that the start-up reads (cli.go:17-58). */
  datatype MenuArgs = MenuArgs(
    chosen: bool,
    start: String,
    out: String,
    maxItems: int,
    logLevel: String,
    dryRun: bool,
    timeout: int)

  /** The flags of `greg dmenu` that the start-up reads (cli.go:60-88). */
  datatype DmenuArgs = DmenuArgs(
    chosen: bool,
    out: String,
    maxItems: int,
    logLevel: String,
    dryRun: bool,
    timeout: int)

  /** The flags of `greg apps` (cli.go:90-106); there is no max-items or timeout flag. */
  datatype AppsArgs = AppsArgs(
    chosen: bool,
    desktopDir: String,
    logLevel: String,
    dryRun: bool)

  /** `chosen` is set for the subcommand named on the command line. */
  datatype Args = Args(menu: MenuArgs, dmenu: DmenuArgs, apps: AppsArgs)

  /**
   The part of the configuration the start-up changes. `maxItems` is the
   list height asked for (zero or less: fit the terminal), `defaultMaxItems`
   the height used when the terminal cannot be measured, `log` whether debug
   lines are printed.
   */
  datatype Config = Config(maxItems: int, defaultMaxItems: int, log: bool)

  /**
   The subcommand that runs (main.go:27-36): "menu" wins over "dmenu", which
   wins over "apps", and with none named the program lists applications.
   */
  function SelectMode(args: Args): (m: Mode)
    ensures m == MenuMode <==> args.menu.chosen
    ensures m == DmenuMode <==> !args.menu.chosen && args.dmenu.chosen
    ensures m == AppsMode <==> !args.menu.chosen && !args.dmenu.chosen
  {
    if args.menu.chosen then MenuMode
    else if args.dmenu.chosen then DmenuMode
    else AppsMode
  }

  /**
   The effect of a `--log-level` value on the logging switch (main.go:57-60):
   an empty value leaves it alone; "error" and "warn" turn logging off and
   every other value turns it on.
   */
  function LogAfter(level: String, log: bool): (r: bool)
    ensures level == "" ==> r == log
    ensures level != "" ==> (r <==> level != "error" && level != "warn")
  {
    if level == "" then log else !(level == "error" || level == "warn")
  }

  /** The `--max-items` value of the running subcommand; "apps" has none, which reads as 0. */
  function MaxItemsFlag(mode: Mode, args: Args): int {
    match mode
    case MenuMode => args.menu.maxItems
    case DmenuMode => args.dmenu.maxItems
    case AppsMode => 0
  }

  /** The `--log-level` value of the running subcommand. */
  function LogLevelFlag(mode: Mode, args: Args): String {
    match mode
    case MenuMode => args.menu.logLevel
    case DmenuMode => args.dmenu.logLevel
    case AppsMode => args.apps.logLevel
  }

  /**
   The per-subcommand overrides (main.go:51-74). Only the running
   subcommand's flags are read. A non-zero `--max-items` replaces the
   configured height (so -1 asks for fitting the terminal) and 0 keeps it;
   "apps" never changes the height. The log level is applied as `LogAfter`
   says, and the fallback height is never touched.
   */
  function ApplyFlags(mode: Mode, args: Args, cfg: Config): (r: Config)
    ensures r.defaultMaxItems == cfg.defaultMaxItems
    ensures r.maxItems == if MaxItemsFlag(mode, args) != 0 then MaxItemsFlag(mode, args) else cfg.maxItems
    ensures mode == AppsMode ==> r.maxItems == cfg.maxItems
    ensures r.log == LogAfter(LogLevelFlag(mode, args), cfg.log)
  {
    var withItems := if MaxItemsFlag(mode, args) != 0 then cfg.(maxItems := MaxItemsFlag(mode, args)) else cfg;
    withItems.(log := LogAfter(LogLevelFlag(mode, args), cfg.log))
  }

  /** Applying the flags a second time changes nothing. */
  lemma ApplyFlagsIdempotent(mode: Mode, args: Args, cfg: Config)
    ensures ApplyFlags(mode, args, ApplyFlags(mode, args, cfg)) == ApplyFlags(mode, args, cfg)
  {
  }

  /** The flags of the subcommands that do not run have no effect. */
  lemma OnlyRunningSubcommandCounts(args: Args, other: Args, cfg: Config)
    requires args.menu == other.menu
    ensures ApplyFlags(MenuMode, args, cfg) == ApplyFlags(MenuMode, other, cfg)
    ensures args.dmenu == other.dmenu ==> ApplyFlags(DmenuMode, args, cfg) == ApplyFlags(DmenuMode, other, cfg)
  {
  }

  // ---------------------------------------------------------------------------
  // getMaxItems

  /** The terminal size, as golang.org/x/term's GetSize reports it: width first, then height. */
  datatype Size = Size(width: int, height: int)

  /** Lines kept free for the header, the prompt and the margins (main.go:237). */
  const ReservedLines := 4

  /**
   getMaxItems as greg writes it (main.go:222-240). The first result of
   GetSize is the terminal width, but main.go:227 names it `height`, so the
   row count is computed from the number of columns: a positive configured
   height is kept; a terminal that cannot be measured or is fewer than 5
   columns wide gets the fallback height; any other gets its width less 4.
   */
  function GetMaxItemsAsWritten(cfg: Config, size: Option<Size>): (r: int)
    ensures cfg.maxItems > 0 ==> r == cfg.maxItems
    ensures cfg.maxItems <= 0 && (size.None? || size.value.width < 5) ==> r == cfg.defaultMaxItems
    ensures cfg.maxItems <= 0 && size.Some? && size.value.width >= 5 ==> r == size.value.width - ReservedLines
    ensures cfg.defaultMaxItems >= 1 ==> r >= 1
  {
    if cfg.maxItems > 0 then cfg.maxItems
    else if size.None? || size.value.width < 5 then cfg.defaultMaxItems
    else if size.value.width - ReservedLines > 1 then size.value.width - ReservedLines
    else 1
  }

  /**
   A standard 80x24 terminal gets a 76-row list from the code as written:
   with the 4 reserved lines that is 56 lines more than the terminal has.
   */
  lemma AsWrittenOverflowsTerminal()
    ensures var cfg := Config(-1, 10, false);
            var size := Size(80, 24);
            && GetMaxItemsAsWritten(cfg, Some(size)) == 76
            && GetMaxItemsAsWritten(cfg, Some(size)) + ReservedLines > size.height
  {
  }

  /**
   getMaxItems (main.go:222-240) reading the height: a positive configured
   height is kept; otherwise a terminal that cannot be measured or is fewer
   than 5 lines high gets the fallback height, and any other terminal gets
   its height less the 4 reserved lines. A measured result is at least 1 and
   leaves room for the reserved lines.
   */
  function GetMaxItems(cfg: Config, size: Option<Size>): (r: int)
    ensures cfg.maxItems > 0 ==> r == cfg.maxItems
    ensures cfg.maxItems <= 0 && (size.None? || size.value.height < 5) ==> r == cfg.defaultMaxItems
    ensures cfg.maxItems <= 0 && size.Some? && size.value.height >= 5 ==>
              && r == size.value.height - ReservedLines
              && 1 <= r
              && r + ReservedLines <= size.value.height
    ensures cfg.defaultMaxItems >= 1 ==> r >= 1
  {
    if cfg.maxItems > 0 then cfg.maxItems
    else if size.None? || size.value.height < 5 then cfg.defaultMaxItems
    else if size.value.height - ReservedLines > 1 then size.value.height - ReservedLines
    else 1
  }

  /**
   The list height a session runs with: the flags applied to the loaded
   configuration, then the height resolved against the terminal
   (main.go:51-74 and 142).
   */
  function SessionConfig(args: Args, cfg: Config, size: Option<Size>): (r: Config)
    ensures var flagged := ApplyFlags(SelectMode(args), args, cfg);
            && r.log == flagged.log
            && r.defaultMaxItems == cfg.defaultMaxItems
            && (flagged.maxItems > 0 ==> r.maxItems == flagged.maxItems)
            && (flagged.maxItems <= 0 && size.Some? && size.value.height >= 5 ==>
                  r.maxItems == size.value.height - ReservedLines)
            && (flagged.maxItems <= 0 && (size.None? || size.value.height < 5) ==>
                  r.maxItems == cfg.defaultMaxItems)
    ensures cfg.defaultMaxItems >= 1 ==> r.maxItems >= 1
  {
    var flagged := ApplyFlags(SelectMode(args), args, cfg);
    flagged.(maxItems := GetMaxItems(flagged, size))
  }

  // ---------------------------------------------------------------------------
  // Per-session settings

  /** The default directory of desktop files, used when `--desktop-dir` is not given (main.go:118). */
  const DefaultDesktopDir: String := "/home/chris/.local/share/applications"

  /** The directory the application list is read from (main.go:118-121). */
  function DesktopDir(args: Args): (r: String)
    ensures args.apps.desktopDir != "" ==> r == args.apps.desktopDir
    ensures args.apps.desktopDir == "" ==> r == DefaultDesktopDir
    ensures r != ""
  {
    if args.apps.desktopDir != "" then args.apps.desktopDir else DefaultDesktopDir
  }

  /** What a session takes from its subcommand's flags besides the configuration. */
  datatype Session = Session(out: String, dryRun: bool, timeout: int)

  /**
   The output file, dry-run switch and inactivity timeout of a session
   (main.go:149-177): each comes from the running subcommand's flags; "apps"
   has no output file and no timeout.
   */
  function SessionFor(mode: Mode, args: Args): (r: Session)
    ensures mode == MenuMode ==> r == Session(args.menu.out, args.menu.dryRun, args.menu.timeout)
    ensures mode == DmenuMode ==> r == Session(args.dmenu.out, args.dmenu.dryRun, args.dmenu.timeout)
    ensures mode == AppsMode ==> r.out == "" && r.timeout == 0 && r.dryRun == args.apps.dryRun
  {
    match mode
    case MenuMode => Session(args.menu.out, args.menu.dryRun, args.menu.timeout)
    case DmenuMode => Session(args.dmenu.out, args.dmenu.dryRun, args.dmenu.timeout)
    case AppsMode => Session("", args.apps.dryRun, 0)
  }

  // ---------------------------------------------------------------------------
  // Start submenu

  /**
   The level a menu session starts from (main.go:103-111): with no `--start`
   id, or an id no node of the tree carries, the top level; otherwise the
   children of the first node, in pre-order, that carries the id.
   */
  function StartLevel(root: seq<Entry>, start: String): (r: seq<Entry>)
    ensures start == "" ==> r == root
    ensures start != "" && (forall e :: e in Flatten(root) ==> e.id != start) ==> r == root
    ensures start != "" && FindById(root, start).Some? ==>
              && r == FindById(root, start).value.items
              && FindById(root, start).value in Flatten(root)
              && FindById(root, start).value.id == start
  {
    if start == "" then root
    else
      match FindById(root, start)
      case None => root
      case Some(e) => e.items
  }

  /** A node's subtree lies inside the tree: every node below a node of the tree is a node of the tree. */
  lemma {:induction false} SubtreeInTree(level: seq<Entry>, e: Entry)
    requires e in Flatten(level)
    ensures forall d :: d in Flatten(e.items) ==> d in Flatten(level)
    decreases level
  {
    var head := level[0];
    assert Flatten(level) == [head] + Flatten(head.items) + Flatten(level[1..]);
    if e == head {
    } else if e in Flatten(head.items) {
      SubtreeInTree(head.items, e);
    } else {
      SubtreeInTree(level[1..], e);
    }
  }

  /** Starting below the top never shows a node that is not in the configured tree. */
  lemma StartLevelInTree(root: seq<Entry>, start: String)
    ensures forall d :: d in Flatten(StartLevel(root, start)) ==> d in Flatten(root)
  {
    if start != "" && FindById(root, start).Some? {
      SubtreeInTree(root, FindById(root, start).value);
    }
  }
}

=== FILE: text.dfy ===
/**
 The byte-string helpers the selector relies on: the parts of Go's `strings`
 package it calls (`ToLower`, `Contains`, `TrimSpace`, `CutPrefix`,
 `ReplaceAll` with an empty replacement, splitting on "\n"), written out so
 that the rest of the model can state properties relative to them.

 A Go `string` is a sequence of bytes, and `len`, slicing and `s[:len(s)-1]`
 work on bytes. Here a `String` is a `seq<char>` in which every `char` stands
 for one byte; case folding and white-space trimming are the ASCII rules.
 */
module Text {

  type String = seq<char>

  datatype Option<+T> = None | Some(value: T)

  /** A Go `(value, error)` pair where exactly one side is meaningful. */
  datatype Result<+T, +E> = Ok(value: T) | Err(error: E)

  /** ASCII upper-case letter. */
  predicate IsUpper(c: char) {
    'A' <= c <= 'Z'
  }

  function LowerChar(c: char): char {
    if IsUpper(c) then (c as int + 32) as char else c
  }

  /** strings.ToLower, ASCII rules: each upper-case letter becomes its lower-case form. */
  function ToLower(s: String): (r: String)
    ensures |r| == |s|
    ensures forall i :: 0 <= i < |s| ==> r[i] == LowerChar(s[i])
    ensures forall i :: 0 <= i < |s| ==> !IsUpper(r[i])
  {
    seq(|s|, i requires 0 <= i < |s| => LowerChar(s[i]))
  }

  /** Lower-casing twice is lower-casing once. */
  lemma ToLowerIdempotent(s: String)
    ensures ToLower(ToLower(s)) == ToLower(s)
  {
  }

  predicate HasPrefix(s: String, p: String) {
    |p| <= |s| && s[..|p|] == p
  }

  predicate HasSuffix(s: String, p: String) {
    |p| <= |s| && s[|s| - |p|..] == p
  }

  /** `sub` occurs in `s` starting at position `i`. */
  predicate OccursAt(s: String, sub: String, i: int) {
    0 <= i <= |s| - |sub| && s[i..i + |sub|] == sub
  }

  /** strings.Contains: `sub` occurs as a contiguous block of `s` (the empty string occurs everywhere). */
  predicate Contains(s: String, sub: String): (b: bool)
    ensures sub == [] ==> b
    ensures b ==> |sub| <= |s|
  {
    assert sub == [] ==> OccursAt(s, sub, 0);
    exists i | 0 <= i <= |s| - |sub| :: OccursAt(s, sub, i)
  }

  /** strings.CutPrefix: the remainder after `p`, when `s` starts with `p`. */
  function CutPrefix(s: String, p: String): (r: Option<String>)
    ensures r.Some? <==> HasPrefix(s, p)
    ensures r.Some? ==> s == p + r.value
  {
    if HasPrefix(s, p) then Some(s[|p|..]) else None
  }

  // ---------------------------------------------------------------------------
  // White space

  /** The ASCII white space Go's TrimSpace removes: tab, LF, VT, FF, CR and space. */
  predicate IsSpace(c: char) {
    c == ' ' || 9 <= c as int <= 13
  }

  function TrimLeft(s: String): (r: String)
    ensures |r| <= |s| && r == s[|s| - |r|..]
    ensures forall i :: 0 <= i < |s| - |r| ==> IsSpace(s[i])
    ensures r == [] || !IsSpace(r[0])
    decreases |s|
  {
    if |s| > 0 && IsSpace(s[0]) then TrimLeft(s[1..]) else s
  }

  function TrimRight(s: String): (r: String)
    ensures |r| <= |s| && r == s[..|r|]
    ensures forall i :: |r| <= i < |s| ==> IsSpace(s[i])
    ensures r == [] || !IsSpace(r[|r| - 1])
    decreases |s|
  {
    if |s| > 0 && IsSpace(s[|s| - 1]) then TrimRight(s[..|s| - 1]) else s
  }

  /**
   strings.TrimSpace: `s` with its leading and trailing white space removed.
   The result is a block of `s` that neither starts nor ends with white space,
   and everything cut off on either side is white space.
   */
  function TrimSpace(s: String): (r: String)
    ensures |r| <= |s|
    ensures r == [] || (!IsSpace(r[0]) && !IsSpace(r[|r| - 1]))
    ensures exists k :: PaddedBy(s, r, k)
  {
    PaddedByTrims(s, TrimLeft(s), TrimRight(TrimLeft(s)));
    TrimRight(TrimLeft(s))
  }

  /**
   Cutting white space from the front of `s` (giving `l`) and then from the
   back of `l` (giving `r`) leaves `r` padded by white space inside `s`.
   */
  lemma PaddedByTrims(s: String, l: String, r: String)
    requires |l| <= |s| && l == s[|s| - |l|..]
    requires forall i :: 0 <= i < |s| - |l| ==> IsSpace(s[i])
    requires |r| <= |l| && r == l[..|r|]
    requires forall i :: |r| <= i < |l| ==> IsSpace(l[i])
    ensures PaddedBy(s, r, |s| - |l|)
  {
    var k := |s| - |l|;
    assert s[k..k + |r|] == r;
    forall i | k + |r| <= i < |s|
      ensures IsSpace(s[i])
    {
      assert s[i] == l[i - k];
    }
  }

  /** `s` is `t` placed at position `k` with only white space around it. */
  predicate PaddedBy(s: String, t: String, k: int) {
    && OccursAt(s, t, k)
    && (forall i :: 0 <= i < k ==> IsSpace(s[i]))
    && (forall i :: k + |t| <= i < |s| ==> IsSpace(s[i]))
  }

  lemma {:induction false} TrimLeftNoSpace(s: String)
    requires s == [] || !IsSpace(s[0])
    ensures TrimLeft(s) == s
  {
  }

  /** A string that neither starts nor ends with white space is its own trimming. */
  lemma TrimSpaceOfTrimmed(s: String)
    requires s == [] || (!IsSpace(s[0]) && !IsSpace(s[|s| - 1]))
    ensures TrimSpace(s) == s
  {
    TrimLeftNoSpace(s);
  }

  /** Trimming is idempotent: a trimmed string has nothing left to trim. */
  lemma {:induction false} TrimSpaceIdempotent(s: String)
    ensures TrimSpace(TrimSpace(s)) == TrimSpace(s)
  {
    var t := TrimSpace(s);
    assert TrimLeft(t) == t;
    assert t == [] || !IsSpace(t[|t| - 1]);
  }

  // ---------------------------------------------------------------------------
  // Lines

  /** Index of the first occurrence of `c` in `s`. */
  function IndexOf(s: String, c: char): (k: nat)
    requires c in s
    ensures k < |s| && s[k] == c && c !in s[..k]
  {
    if s[0] == c then 0 else 1 + IndexOf(s[1..], c)
  }

  lemma IndexOfFirst(s: String, c: char, k: nat)
    requires k < |s| && s[k] == c && c !in s[..k]
    ensures IndexOf(s, c) == k
  {
  }

  /** The inverse of splitting: the lines joined with "\n" between them. */
  function JoinLines(ls: seq<String>): String
    requires |ls| >= 1
  {
    if |ls| == 1 then ls[0] else ls[0] + "\n" + JoinLines(ls[1..])
  }

  /**
   strings.SplitSeq(s, "\n"): the pieces of `s` between newline bytes, at least
   one (the empty string gives one empty line). None of the pieces holds a
   newline, and joining them back with "\n" gives `s` again.
   */
  function Lines(s: String): (r: seq<String>)
    ensures |r| >= 1
    ensures forall i :: 0 <= i < |r| ==> '\n' !in r[i]
    ensures JoinLines(r) == s
    decreases |s|
  {
    if '\n' !in s then [s]
    else
      var k := IndexOf(s, '\n');
      var rest := Lines(s[k + 1..]);
      assert s == s[..k] + "\n" + s[k + 1..];
      [s[..k]] + rest
  }

  /** Splitting undoes joining, for lines that hold no newline. */
  lemma {:induction false} LinesOfJoin(ls: seq<String>)
    requires |ls| >= 1
    requires forall i :: 0 <= i < |ls| ==> '\n' !in ls[i]
    ensures Lines(JoinLines(ls)) == ls
    decreases |ls|
  {
    if |ls| == 1 {
    } else {
      var s := JoinLines(ls);
      var k := |ls[0]|;
      assert s == ls[0] + "\n" + JoinLines(ls[1..]);
      assert s[k] == '\n' && s[..k] == ls[0];
      assert '\n' in s;
      IndexOfFirst(s, '\n', k);
      assert s[k + 1..] == JoinLines(ls[1..]);
      LinesOfJoin(ls[1..]);
    }
  }

  // ---------------------------------------------------------------------------
  // Removing every occurrence of a pattern

  /**
   strings.ReplaceAll(s, pat, ""): scanning left to right, every non-overlapping
   occurrence of `pat` is dropped. It never lengthens `s`, and it changes `s`
   exactly when `pat` occurs in it.
   */
  function RemoveAll(s: String, pat: String): (r: String)
    requires |pat| > 0
    ensures |r| <= |s|
    ensures r == s <==> !Contains(s, pat)
    decreases |s|
  {
    if |s| < |pat| then
      s
    else if s[..|pat|] == pat then
      var r := RemoveAll(s[|pat|..], pat);
      assert OccursAt(s, pat, 0);
      r
    else
      var r := RemoveAll(s[1..], pat);
      ContainsStep(s, pat);
      assert [s[0]] + r == s <==> r == s[1..] by {
        if [s[0]] + r == s { assert r == s[1..]; }
      }
      [s[0]] + r
  }

  /**
   Every occurrence is removed, not just the first: a byte that is not part
   of the pattern splits the string into two halves that are cleaned
   independently, since no occurrence can span it.
   */
  lemma {:induction false} RemoveAllAroundSeparator(s: String, c: char, t: String, pat: String)
    requires |pat| > 0 && c !in pat
    ensures RemoveAll(s + [c] + t, pat) == RemoveAll(s, pat) + [c] + RemoveAll(t, pat)
    decreases |s|, 2
  {
    if |s| >= |pat| && s[..|pat|] == pat {
      SeparatorAfterOccurrence(s, c, t, pat);
    } else {
      SeparatorAfterByte(s, c, t, pat);
    }
  }

  /** `s` starts with the pattern: it is dropped from the front of both sides. */
  lemma {:induction false} SeparatorAfterOccurrence(s: String, c: char, t: String, pat: String)
    requires |pat| > 0 && c !in pat
    requires |s| >= |pat| && s[..|pat|] == pat
    ensures RemoveAll(s + [c] + t, pat) == RemoveAll(s, pat) + [c] + RemoveAll(t, pat)
    decreases |s|, 0
  {
    var u := s + [c] + t;
    assert u[..|pat|] == pat;
    assert u[|pat|..] == s[|pat|..] + [c] + t;
    RemoveAllAroundSeparator(s[|pat|..], c, t, pat);
  }

  /** `s` does not start with the pattern, and neither does `s + [c] + t`: one byte is kept on both sides. */
  lemma {:induction false} SeparatorAfterByte(s: String, c: char, t: String, pat: String)
    requires |pat| > 0 && c !in pat
    requires !(|s| >= |pat| && s[..|pat|] == pat)
    ensures RemoveAll(s + [c] + t, pat) == RemoveAll(s, pat) + [c] + RemoveAll(t, pat)
    decreases |s|, 1
  {
    if s == [] {
      SeparatorFirst(c, t, pat);
    } else {
      SeparatorAfterFirstByte(s, c, t, pat);
    }
  }

  /** The inductive step of `SeparatorAfterByte`, for a non-empty `s`. */
  lemma {:induction false} SeparatorAfterFirstByte(s: String, c: char, t: String, pat: String)
    requires |pat| > 0 && c !in pat && s != []
    requires !(|s| >= |pat| && s[..|pat|] == pat)
    ensures RemoveAll(s + [c] + t, pat) == RemoveAll(s, pat) + [c] + RemoveAll(t, pat)
    decreases |s|, 0
  {
    var u := s + [c] + t;
    NoOccurrenceAcross(s, c, t, pat);
    RemoveAllFront(u, pat);
    RemoveAllFront(s, pat);
    RestAfterFirst(s, c, t);
    RemoveAllAroundSeparator(s[1..], c, t, pat);
    Regroup(s[0], RemoveAll(s[1..], pat), c, RemoveAll(t, pat));
  }

  /** Dropping the first byte of `s + [c] + t` drops the first byte of `s`. */
  lemma RestAfterFirst(s: String, c: char, t: String)
    requires s != []
    ensures (s + [c] + t)[0] == s[0] && (s + [c] + t)[1..] == s[1..] + [c] + t
  {
  }

  lemma Regroup(x: char, a: String, c: char, b: String)
    ensures [x] + (a + [c] + b) == ([x] + a) + [c] + b
  {
  }

  /** The separator itself at the front is kept. */
  lemma SeparatorFirst(c: char, t: String, pat: String)
    requires |pat| > 0 && c !in pat
    ensures RemoveAll([] + [c] + t, pat) == RemoveAll([], pat) + [c] + RemoveAll(t, pat)
  {
    var u := [c] + t;
    assert |u| >= |pat| ==> u[..|pat|][0] == c;
    RemoveAllFront(u, pat);
    assert u[1..] == t;
  }

  /** When `s` does not start with the pattern, no occurrence starts at the front of `s + [c] + t`. */
  lemma NoOccurrenceAcross(s: String, c: char, t: String, pat: String)
    requires |pat| > 0 && c !in pat
    requires !(|s| >= |pat| && s[..|pat|] == pat)
    ensures var u := s + [c] + t; !(|u| >= |pat| && u[..|pat|] == pat)
  {
    var u := s + [c] + t;
    if |s| < |pat| {
      assert |u| >= |pat| ==> u[..|pat|][|s|] == c;
    } else {
      assert u[..|pat|] == s[..|pat|];
    }
  }

  /** Without an occurrence at the front, the first byte is kept and the rest is cleaned. */
  lemma {:induction false} RemoveAllFront(s: String, pat: String)
    requires |s| > 0 && |pat| > 0
    requires !(|s| >= |pat| && s[..|pat|] == pat)
    ensures RemoveAll(s, pat) == [s[0]] + RemoveAll(s[1..], pat)
  {
    if |s| < |pat| {
      assert RemoveAll(s[1..], pat) == s[1..];
    }
  }

  /** An occurrence of `pat` in `s` that is not at the front is an occurrence in `s[1..]`. */
  lemma ContainsStep(s: String, pat: String)
    requires |s| >= |pat| > 0
    requires s[..|pat|] != pat
    ensures Contains(s, pat) <==> Contains(s[1..], pat)
  {
    if Contains(s, pat) {
      var i :| 0 <= i <= |s| - |pat| && OccursAt(s, pat, i);
      assert i != 0;
      assert s[1..][i - 1..i - 1 + |pat|] == pat;
      assert OccursAt(s[1..], pat, i - 1);
    }
    if Contains(s[1..], pat) {
      var i :| 0 <= i <= |s| - 1 - |pat| && OccursAt(s[1..], pat, i);
      assert 0 <= i <= |s| - 1 - |pat| && s[1..][i..i + |pat|] == pat;
      assert s[i + 1..i + 1 + |pat|] == pat;
      assert OccursAt(s, pat, i + 1);
    }
  }

  /** A string in which the pattern's first byte never appears cannot contain the pattern. */
  lemma NotContainsFirst(s: String, pat: String)
    ensures |pat| > 0 && pat[0] !in s ==> !Contains(s, pat)
  {
  }
}
